=== FILE: README.md ===
# Order lifecycle with stock reservation

A Dafny model of the order routes of the back office (create, update, delete, set status,
statistics), the order, item, product and customer records they work on, and the catalog routes
that move a product's stock or decide whether a product may go (stock adjustment, deletion guard,
low-stock query, product creation and update).

The database is one immutable `Records.Store`:
- products by id;
- the set of existing customer ids;
- orders by id, each owning its sequence of items (product id, quantity, unit price at order time).

New rows get their ids the way SQLite assigns them to an `INTEGER PRIMARY KEY` without AUTOINCREMENT: one more than the largest id in the table, or 1 in an empty table. So the id of a deleted newest row is handed out again (`Records.NextId`).

Every route is a pure function from a store and a request to a `Result`. `Ok` carries the store the
route commits. `Err` carries only the error kind: a route that returns early never commits, so the
session is discarded and nothing it changed survives. Money is integer cents, because the price and
total columns are `Numeric(10, 2)`. Quantities and stock are signed integers, because the routes
accept negative quantities; the bound SQLite puts on them is under "## Left out".

Modules:
- `Common`: `Option`, `Result` and the error kinds.
- `Records`: the records, item sums, scans over the order table, and the consistency conditions.
- `Ledger`: the reservation and release loops shared by the order routes.
- `Orders`: the order routes.
- `Products`: the catalog routes.
- `Tally`: how scans over the order table react to one insertion, removal or update.
- `Consistency`: which routes keep a store consistent.
- `Conservation`: stock plus what live orders hold.
- `Reports`: statistics and customer totals.
- `Quirks`: worked examples of the behaviours the routes have, plus the general fact behind the id reuse.

Error kinds follow the route's answer:
- `Validation`: a 400 for a missing or bad field.
- `NotFound`: an unknown customer, product or order.
- `InsufficientStock`: a 400 for an item asking for more than the remaining stock.
- `InvalidStatus`: a status outside the five known ones.
- `ProductInUse`: deleting a product that order items still name.
- `MissingKey`: the update route indexing an item payload that lacks `product_id` or `quantity`. The route raises `KeyError` there, which it answers with a 500 after a rollback.

An unknown order or product id in the URL is looked up with `get_or_404` inside the routes' `try/except Exception`, so the HTTP answer is in fact 500, not 404. An unknown customer or a payload naming an unknown product gets an explicit 404 (routes/orders.py:62-63, :85-86, :156-157). The model records every one of these causes as `NotFound`.

## Model

| member | source | states |
|---|---|---|
| `Records.CalculateTotal` | models/user.py:127-130 | the stored total and the returned value agree, nothing else in the order changes, and the value equals the sum of the items' reported line totals |
| `Records.LineTotal` | models/user.py:165 | the zero-price guard never changes the line total: it is always quantity × price at order |
| `Records.LineTotalsIsItemsTotal` | models/user.py:165 | the reported line totals of an order add up to the order's item total |
| `Records.ReservedNonNegative` | models/user.py:154 | items without negative quantities hold a non-negative amount of every product |
| `Ledger.Release` | routes/orders.py:145-148 | giving items back raises each existing product's stock by exactly the quantity the items hold of it, and keeps the product set |
| `Ledger.CheckItem` | routes/orders.py:80-92 | the per-item checks in route order. Create refuses a falsy id or quantity (Validation) before it looks the product up (NotFound). Update fails on a missing `product_id` key, then on an unknown product, and only then on a missing `quantity` key. An item is accepted exactly when it resolves and its quantity is at most the current stock, and refused with InsufficientStock exactly when it resolves and asks for more. An accepted item carries the payload's id and quantity, and the payload's price or else the catalog price |
| `Ledger.Reserve` | routes/orders.py:80-111 | a successful reservation yields one item per payload, in order, and lowers each product's stock by the total quantity taken, never below zero if it started at or above zero. A Validation, MissingKey or NotFound failure is traced to a malformed payload, a payload lacking a key, or one naming an unknown product |
| `Ledger.ReserveShortfallTraced` | routes/orders.py:80-92 | a reservation refused for lack of stock has a payload that resolves and asks more than the stock its product has left after the payloads before it |
| `Ledger.FailedPrefixDecides` | routes/orders.py:80-92 | the first failing payload decides the outcome: once the payloads up to it fail, appending any payloads after them changes neither the failure nor its error kind |
| `Ledger.ShortfallCarriesBack` | routes/orders.py:91-107 | a payload that runs short once the first payload's quantity is taken is short in the whole list, counting that first quantity among those taken before it |
| `Ledger.RequestedNonNegative` | routes/orders.py:81 | payloads without negative quantities ask a non-negative amount of every product |
| `Ledger.UnnamedNotRequested` | routes/orders.py:84-91 | a product no payload names is asked for nothing |
| `Ledger.ReserveSucceedsIff` | routes/orders.py:80-92 | without negative quantities, the cumulative item-by-item stock check succeeds exactly when every payload resolves and no product's summed request exceeds its stock (duplicates counted together) |
| `Orders.CreateOrder` | routes/orders.py:47-112 | validation order (customer id, items, customer exists); failure exactly when reservation fails, and then with the reservation's error kind; the new id is the next row id, status defaulting to pending, the total as the sum over items, item prices and the per-product stock decrease |
| `Orders.CreateOrderSucceedsIff` | routes/orders.py:55-92 | without negative quantities, create succeeds exactly when a customer and items are given, the customer exists, every item is well formed and names a product, and the summed requests fit in stock |
| `Orders.UpdateOrder` | routes/orders.py:130-183 | without items only status and notes change, and only when supplied; with items, stock is first restored from the old items, then the new items are reserved against it and the total is their sum; failure exactly when that reservation fails, and then with its error kind |
| `Orders.UpdateOrderSucceedsIff` | routes/orders.py:143-163 | without negative quantities, an update succeeds exactly when the order exists and any new item list resolves and fits in the restored stock |
| `Orders.ReplaceWithNothing` | routes/orders.py:143-181 | replacing the items with an empty list succeeds and leaves no items and a total of 0 |
| `Orders.DeleteOrder` | routes/orders.py:190-203 | the order and its items go away, and every item's quantity goes back to stock whatever the status |
| `Orders.SetStatus` | routes/orders.py:210-237 | a missing or empty status is a Validation error, one outside the five an InvalidStatus error; entering cancelled from another status gives every item's quantity back; no other transition touches stock |
| `Reports.StatsCountsPartition` | routes/orders.py:259-263 | the four reported status counts plus shipped and unknown-status orders are exactly the order count |
| `Reports.StatsAfterCreate` | routes/orders.py:259-267 | a new order adds one order, one to its status count, and its total to revenue if it is completed |
| `Reports.StatsAfterDelete` | routes/orders.py:259-267 | a deleted order leaves the count, its status count, and revenue if it was completed |
| `Reports.StatsAfterSetStatus` | routes/orders.py:259-267 | a status change moves one order between status counts and moves its total into or out of revenue |
| `Reports.CustomerTotalsAfterCreate` | models/user.py:76-77 | a new order adds one to its customer's order count and its total to that customer's spending, and nothing for other customers |
| `Reports.CustomerTotalsAfterDelete` | models/user.py:76-77 | a deleted order leaves its customer's order count and spending |
| `Reports.CustomerTotalsAfterUpdate` | models/user.py:76-77 | an update never changes order counts; spending moves by the change of the order's total, and not at all without new items |
| `Products.AdjustStock` | routes/products.py:171-189 | an unknown product is NotFound, a non-integer adjustment is refused, success exactly when stock + adjustment ≥ 0, and then only that product's stock changes, to exactly that sum |
| `Products.BoolAdjustsLikeInt` | routes/products.py:181-189 | a boolean adjustment passes the `isinstance(adjustment, int)` check and acts exactly as the integer 1 or 0: same refusal, same new stock |
| `Products.DeleteProduct` | routes/products.py:120-131 | refused with ProductInUse exactly when some order item names the product; otherwise the store is unchanged except that this product is gone, and no item named it |
| `Products.LowStock` | routes/products.py:153-162 | returns exactly the products whose active flag is true (not false, not NULL) and whose stock is at most the threshold, 10 by default |
| `Products.CreateProduct` | routes/products.py:55-84 | succeeds exactly when a name and a non-zero price are given and a given non-empty SKU is unused; the new product gets the next row id, stock 0 and active by default, and nothing else changes |
| `Products.UpdateProduct` | routes/products.py:91-113 | for an existing product, succeeds exactly when no new non-empty SKU belongs to another product (and is refused with Validation otherwise); supplied fields are overwritten, a JSON null included, and all others kept |
| `Consistency.ReleaseKeepsStockNonNegative` | routes/orders.py:197-200 | releasing a stored order's items in a consistent store leaves every stock non-negative |
| `Consistency.ReservedItemsNonNegative` | routes/orders.py:97-102 | the items a reservation produces carry the payloads' quantities, so no negative quantity is stored |
| `Consistency.CreateOrderKeepsValid` | routes/orders.py:80-112 | create, with no negative quantity in the payload, keeps stock non-negative, totals equal to their items, items naming products and row ids positive |
| `Consistency.UpdateOrderKeepsValid` | routes/orders.py:143-183 | update, with no negative quantity in the payload, keeps the store consistent |
| `Consistency.DeleteOrderKeepsValid` | routes/orders.py:196-203 | delete keeps the store consistent |
| `Consistency.SetStatusKeepsValid` | routes/orders.py:226-237 | the status route keeps the store consistent |
| `Consistency.AdjustStockKeepsValid` | routes/products.py:184-189 | stock adjustment keeps the store consistent |
| `Consistency.DeleteProductKeepsValid` | routes/products.py:127-131 | the deletion guard keeps every item naming an existing product |
| `Consistency.CreateProductKeepsValid` | routes/products.py:73-84 | creating a product with non-negative stock keeps the store consistent |
| `Consistency.UpdateProductKeepsValid` | routes/products.py:104-113 | updating a product without a negative stock keeps the store consistent |
| `Consistency.CalculateTotalChangesNothing` | models/user.py:127-130 | where totals match items, recalculating a total changes nothing |
| `Consistency.CreateOrderStatusesKnown` | routes/orders.py:69 | a created order keeps all statuses known exactly when its own status is known |
| `Consistency.UpdateOrderStatusesKnown` | routes/orders.py:138 | the general update keeps all statuses known exactly when the status it stores is known |
| `Consistency.SetStatusAndDeleteKeepStatusesKnown` | routes/orders.py:222-227 | the status route and deletion never leave an order in an unknown status |
| `Conservation.CreateOrderConservesOnHand` | routes/orders.py:91-111 | creating moves stock into the order: stock plus live holdings stays the same unless the order is created cancelled |
| `Conservation.UpdateOrderOnHand` | routes/orders.py:138-181 | stock plus live holdings is kept while neither status is cancelled; cancelling through this route releases nothing; replacing a cancelled order's items releases them again |
| `Conservation.SetStatusOnHand` | routes/orders.py:226-235 | entering cancelled keeps stock plus live holdings; leaving cancelled raises it by what the order holds, since nothing is re-reserved |
| `Conservation.DeleteOrderOnHand` | routes/orders.py:196-202 | deleting a live order keeps stock plus live holdings; deleting a cancelled order raises it by the order's quantities |
| `Conservation.AdjustStockOnHand` | routes/products.py:184-189 | adjustment changes stock plus live holdings by exactly the adjustment, for that product only |
| `Conservation.OnHandCoversStock` | models/user.py:154 | in a consistent store, stock plus live holdings is at least the stock, which is non-negative |
| `Quirks.CancelThenReopen` | routes/orders.py:226-235 | stock 10, order 3 → 7 and total 60.00; cancel → 10 with the total kept; reopen → still 10 |
| `Quirks.NegativeQuantityDrivesStockNegative` | routes/orders.py:81-91 | a quantity of −5 passes create and raises stock from 0 to 5; once the extra 5 is adjusted away, a cancel drives stock to −5 |
| `Quirks.StockCheckDependsOnItemOrder` | routes/orders.py:80-107 | with a negative quantity in the list, the same items are accepted in one order and refused in the other |
| `Quirks.CreateStoresUncheckedStatus` | routes/orders.py:69 | create stores "on-hold", which no status count of the statistics includes |
| `Quirks.CreatedCancelledNeverReleases` | routes/orders.py:231 | an order created cancelled keeps its stock taken even after a cancel |
| `Quirks.DeleteAfterCancelReleasesTwice` | routes/orders.py:197-200 | cancelling and then deleting gives the quantities back twice |
| `Quirks.CreateProductAcceptsNegativeStock` | routes/products.py:77 | create_product stores a negative stock count as given |
| `Quirks.DeleteNewestThenCreateReusesId` | models/user.py:114 | deleting the order a create just made puts the order table back as it was, and the next successful create gets the same id again |
| `Quirks.DeleteThenCreateReusesId` | models/user.py:114 | on a fresh shop: create (id 1), create (id 2), delete 2, create: the new order gets id 2 again |
| `Records.NextId` | models/user.py:114 | the id a new row gets is 1 in an empty table, and otherwise one more than the largest id present, so it is above every id in the table |

## Left out

- Notifications written after the commit of create and of the status route are left out. They are side records with localized text and no effect on orders or stock.
- Timestamps (`order_date`, `created_at`, `updated_at`) are left out because they are wall-clock values.
- JWT identity is left out. The creating user is a parameter of `Orders.CreateOrder`.
- Listing, paging, filtering and single-record reads are left out because they are query plumbing.
- `to_dict` float conversions are not modelled because money is kept in integer cents. The `if self.price_at_order` guard is modelled in `Records.LineTotal`.
- Most null values in payloads are not modelled. A null `price` on an item makes the arithmetic raise. A null `name`, `price` or `stock_quantity` on a product update violates a NOT NULL column at commit. Both are answered with a 500 after a rollback.
- A JSON null `status` on create, or a null `is_active` on product create, reads like an absent key. The ORM leaves a None-valued attribute out of the INSERT when its column has a default, so the default applies.
- On update, absent and null keys are told apart for the nullable columns: notes, description, SKU, category and `is_active`. A null there is stored as NULL, and a NULL `is_active` takes the product out of the low-stock query.
- Payload values of the wrong JSON type are not modelled, for example a string quantity or a string customer id. The one exception is the adjustment of `Products.AdjustStock`. JSON numbers with a fraction in an integer field are listed member by member below.
- The database unique constraint on `sku` is not modelled. An empty-string SKU skips the route's own check, and it is refused at commit only when another product already has the SKU `""`.
- Integers are unbounded in the model. SQLite binds an INTEGER parameter as a signed 64-bit value, so a stock level, quantity, adjustment or id outside [-2^63, 2^63) makes the driver raise `OverflowError`, answered with a 500 after a rollback; the model accepts such values. SQLite does not enforce the declared `Numeric(10, 2)` precision, so money has no overflow of its own there, and rounding to two decimals is not modelled.
- `Orders.CreateOrder` accepts an item list that mixes a price override written as a JSON number with a fraction or an exponent (a Python `float`, `20.0` and `2e3` included) with an item at the catalog price (a `Decimal`). The route's running sum `total_amount += quantity * price` (routes/orders.py:109) raises `TypeError` on adding a `float` to a `Decimal`, answered with a 500 after a rollback. Prices are integer cents in the model, with no `float`/`Decimal` distinction.
- `Orders.UpdateOrder` accepts the same mixed item lists, where the route's sum (routes/orders.py:179) raises the same `TypeError` and answers 500.
- `Orders.CreateOrderSucceedsIff` therefore overstates success for such a mixed item list: the route fails on it even when every payload resolves and fits in stock.
- `Orders.UpdateOrderSucceedsIff` overstates success for such a mixed item list in the same way.
- `Orders.CreateOrder` has integer quantities only. The route also accepts a fractional quantity such as 2.5: it is truthy (routes/orders.py:81), it is compared with the stock (:91), and `stock_quantity -= 2.5` and `total_amount += 2.5 * price` run. SQLAlchemy's `Integer` does not coerce the value and SQLite keeps a REAL in an INTEGER column, so the commit stores a fractional stock, item quantity and total.
- `Orders.UpdateOrder` has integer quantities only. The route's replacement loop (routes/orders.py:155-179) accepts and stores a fractional quantity in the same way.
- `Products.CreateProduct` has an integer stock only. The route stores a fractional `stock_quantity` as given (routes/products.py:77), as a REAL.
- `Products.UpdateProduct` has an integer stock only. The route stores a fractional `stock_quantity` as given (routes/products.py:107), as a REAL.
- An order's total is never null in the model. Every route that creates or replaces items sets it, so the "non-null total" guards of the statistics and of `total_spent` sum the same values.
- Scans of the order table (statistics, customer totals, on-hand stock) count ids from 0 upward. Row ids start at 1 and the routes never store another kind of id, which `Records.IdsPositive` records. The lemmas about scans assume it.
- SQLite's fallback when the largest id is already the largest 64-bit integer is left out. In that case it picks an unused id at random.
- Concurrency is not modelled. The routes read, check and write with no locking, so the model is strictly sequential.
- `Orders.Stats` has no contract of its own. Its counts and revenue are stated by the `Reports` lemmas.
- `Products.AdjustStock`: the "absent adjustment leaves the store as it is" clause is stated only for a product whose stock is non-negative. The route itself refuses any call, including one with adjustment 0, on a product whose stock is already negative.
- `Consistency.CreateOrderKeepsValid` and `Consistency.UpdateOrderKeepsValid` assume the payload has no negative quantity. The routes accept one, and `Quirks.NegativeQuantityDrivesStockNegative` shows the resulting broken state.
- `Consistency.CreateProductKeepsValid` and `Consistency.UpdateProductKeepsValid` assume the stock value is not negative. The routes accept one (`Quirks.CreateProductAcceptsNegativeStock`).
- The other route files are not part of this model: users, tasks, chat, customers, settings, notifications, reports, auth, and the application bootstrap.

=== FILE: common.dfy ===
/**
 The shared vocabulary of the order and catalog routes: optional values and the
 tagged result every route returns instead of an HTTP error response.
 */
module Common {

  /** A value that may be absent: a request field that was not sent, or a null column. */
  datatype Option<+T> = None | Some(value: T) {

    /** The value, or `default` when absent (Python's `data.get(key, default)`). */
    function GetOr(default: T): T {
      match this
      case Some(v) => v
      case None => default
    }
  }

  /** The kinds of failure the routes answer with. Every one of them leaves the store as it was. */
  datatype Error =
    | Validation          // a required field missing or falsy, a taken SKU, a negative stock result
    | NotFound            // the customer, product or order does not exist
    | InsufficientStock   // an item asks for more than the product's (remaining) stock
    | InvalidStatus       // a status outside the five known ones
    | ProductInUse        // the product is still named by some order item
    | MissingKey          // an item payload without `product_id` or `quantity` on order update

  /** Either the new value (the committed state) or the error the route returns early with. */
  datatype Result<+T> = Ok(value: T) | Err(error: Error)
}

=== FILE: conservation.dfy ===
/**
 Stock accounting across the order routes. A product's on-hand quantity is its stock plus
 what the non-cancelled orders hold of it. Creating, replacing, cancelling and deleting
 keep it fixed exactly while an order's item list and its reservations stay in step; the
 lemmas also pin down where the routes let the two drift apart (entering `cancelled`
 through the general update, leaving `cancelled`, and releasing the items of an order that
 was already cancelled).
 */
module Conservation {
  import opened Common
  import opened Records
  import opened Tally
  import opened Orders
  import opened Products

  /** Stock of `p` plus the quantity of `p` the non-cancelled orders hold. */
  function OnHand(s: Store, p: int): int
    requires p in s.products
  {
    s.products[p].stock + Scan(s.orders, Held(p))
  }

  /** Creating an order moves stock into the new order: on hand stays the same, unless it is created cancelled. */
  lemma CreateOrderConservesOnHand(s: Store, req: CreateRequest, user: int, p: int)
    requires IdsPositive(s)
    requires p in s.products
    requires CreateOrder(s, req, user).Ok?
    ensures var c := CreateOrder(s, req, user).value;
            var o := c.store.orders[c.orderId];
            && p in c.store.products
            && (o.status != Cancelled ==> OnHand(c.store, p) == OnHand(s, p))
            && (o.status == Cancelled ==> OnHand(c.store, p) == OnHand(s, p) - Reserved(o.items, p))
  {
    var c := CreateOrder(s, req, user).value;
    var o := c.store.orders[c.orderId];
    ScanInsertNext(s.orders, Held(p), o);
  }

  /**
   Updating an order. While neither the old nor the new status is `cancelled`, on hand is
   unchanged with or without new items. Cancelling through this route releases nothing, and
   replacing the items of a cancelled order releases them a second time.
   */
  lemma UpdateOrderOnHand(s: Store, id: int, req: UpdateRequest, p: int)
    requires IdsPositive(s)
    requires p in s.products
    requires UpdateOrder(s, id, req).Ok?
    ensures var t := UpdateOrder(s, id, req).value;
            var before, after := s.orders[id], t.orders[id];
            && p in t.products
            && (before.status != Cancelled && after.status != Cancelled ==> OnHand(t, p) == OnHand(s, p))
            && (req.items.None? && before.status != Cancelled && after.status == Cancelled ==>
                  OnHand(t, p) == OnHand(s, p) - Reserved(before.items, p))
            && (req.items.Some? && before.status == Cancelled && after.status == Cancelled ==>
                  OnHand(t, p) == OnHand(s, p) + Reserved(before.items, p) - Reserved(after.items, p))
  {
    var t := UpdateOrder(s, id, req).value;
    ScanUpdate(s.orders, Held(p), id, t.orders[id]);
  }

  /**
   Setting a status. Entering `cancelled` gives back exactly what the order held, so on hand
   is unchanged; leaving `cancelled` takes nothing from stock, so on hand grows by the
   order's quantity of `p`.
   */
  lemma SetStatusOnHand(s: Store, id: int, status: Option<string>, p: int)
    requires IdsPositive(s)
    requires p in s.products
    requires SetStatus(s, id, status).Ok?
    ensures var t := SetStatus(s, id, status).value;
            var before := s.orders[id];
            && p in t.products
            && (before.status == Cancelled && status.value != Cancelled ==>
                  OnHand(t, p) == OnHand(s, p) + Reserved(before.items, p))
            && (!(before.status == Cancelled && status.value != Cancelled) ==> OnHand(t, p) == OnHand(s, p))
  {
    var t := SetStatus(s, id, status).value;
    ScanUpdate(s.orders, Held(p), id, t.orders[id]);
  }

  /**
   Deleting an order gives back what it held; deleting a cancelled order gives its
   quantities back a second time.
   */
  lemma DeleteOrderOnHand(s: Store, id: int, p: int)
    requires IdsPositive(s)
    requires p in s.products
    requires DeleteOrder(s, id).Ok?
    ensures var t := DeleteOrder(s, id).value;
            && p in t.products
            && (s.orders[id].status != Cancelled ==> OnHand(t, p) == OnHand(s, p))
            && (s.orders[id].status == Cancelled ==> OnHand(t, p) == OnHand(s, p) + Reserved(s.orders[id].items, p))
  {
    ScanRemove(s.orders, Held(p), id);
  }

  /** Adjusting stock changes on hand by the adjustment and leaves every other product alone. */
  lemma AdjustStockOnHand(s: Store, pid: int, adjustment: Option<Json>, p: int)
    requires p in s.products
    requires AdjustStock(s, pid, adjustment).Ok?
    ensures var t := AdjustStock(s, pid, adjustment).value;
            && p in t.products
            && OnHand(t, p) == OnHand(s, p) + (if p == pid then AsInt(adjustment.GetOr(JInt(0))).value else 0)
  {
  }

  /** In a consistent store nothing is on hand that is not also counted as stock or held by a live order. */
  lemma OnHandCoversStock(s: Store, p: int)
    requires Valid(s)
    requires p in s.products
    ensures OnHand(s, p) >= s.products[p].stock >= 0
  {
    forall k | k in s.orders
      ensures Weight(s.orders[k], Held(p)) >= 0
    {
      ReservedNonNegative(s.orders[k].items, p);
    }
    SumOverNonNegative(s.orders, Span(s.orders), Held(p));
  }
}

=== FILE: consistency.dfy ===
/**
 Which routes keep a store consistent (`Records.Valid`): stock never negative, stored
 quantities never negative, every total equal to the sum over its items, every item naming
 an existing product, and row ids from 1 up. The routes accept negative quantities and negative
 stock counts from their payloads, so the lemmas for those routes assume the payload
 carries none.
 */
module Consistency {
  import opened Common
  import opened Records
  import opened Ledger
  import opened Orders
  import opened Products

  /** Giving back the items of a stored order never lowers any stock in a consistent store. */
  lemma ReleaseKeepsStockNonNegative(s: Store, id: int)
    requires Valid(s)
    requires id in s.orders
    ensures forall p :: p in s.products ==> Release(s.products, s.orders[id].items)[p].stock >= 0
  {
    var items := s.orders[id].items;
    forall p | p in s.products
      ensures Release(s.products, items)[p].stock >= 0
    {
      ReservedNonNegative(items, p);
    }
  }

  /** The items a successful reservation produced carry the payloads' quantities. */
  lemma ReservedItemsNonNegative(products: map<int, Product>, reqs: seq<ItemRequest>, mode: Mode)
    requires NoNegativeQuantity(reqs)
    requires Reserve(products, reqs, mode).Ok?
    ensures forall i :: 0 <= i < |Reserve(products, reqs, mode).value.items| ==>
              Reserve(products, reqs, mode).value.items[i].quantity >= 0
  {
  }

  /** Creating an order from payloads without negative quantities keeps the store consistent. */
  lemma CreateOrderKeepsValid(s: Store, req: CreateRequest, user: int)
    requires Valid(s)
    requires req.items.Some? ==> NoNegativeQuantity(req.items.value)
    ensures CreateOrder(s, req, user).Ok? ==> Valid(CreateOrder(s, req, user).value.store)
  {
    var r := CreateOrder(s, req, user);
    if r.Ok? {
      var t, id := r.value.store, r.value.orderId;
      var o := t.orders[id];
      var res := Reserve(s.products, req.items.value, Creating);
      assert res.Ok? && o.items == res.value.items && t.products == res.value.products;
      ReservedItemsNonNegative(s.products, req.items.value, Creating);
      assert StockNonNegative(t);
      assert QuantitiesNonNegative(t);
      assert TotalsMatchItems(t);
      assert ItemsNameProducts(t) by {
        forall k, i | k in t.orders && 0 <= i < |t.orders[k].items|
          ensures t.orders[k].items[i].productId in t.products
        {
          if k == id {
            assert ItemFrom(req.items.value[i], o.items[i], s.products);
          }
        }
      }
      assert id >= 1;
      assert IdsPositive(t);
    }
  }

  /** Updating an order with payloads without negative quantities keeps the store consistent. */
  lemma UpdateOrderKeepsValid(s: Store, id: int, req: UpdateRequest)
    requires Valid(s)
    requires req.items.Some? ==> NoNegativeQuantity(req.items.value)
    ensures UpdateOrder(s, id, req).Ok? ==> Valid(UpdateOrder(s, id, req).value)
  {
    var r := UpdateOrder(s, id, req);
    if r.Ok? && req.items.Some? {
      var t := r.value;
      var released := Release(s.products, s.orders[id].items);
      ReleaseKeepsStockNonNegative(s, id);
      var res := Reserve(released, req.items.value, Replacing);
      assert res.Ok?;
      ReservedItemsNonNegative(released, req.items.value, Replacing);
      assert t.orders[id].items == res.value.items;
      assert t.products == res.value.products;
      assert ItemsNameProducts(t) by {
        forall k, i | k in t.orders && 0 <= i < |t.orders[k].items|
          ensures t.orders[k].items[i].productId in t.products
        {
          if k == id {
            assert ItemFrom(req.items.value[i], res.value.items[i], released);
          }
        }
      }
    }
  }

  /** Deleting an order keeps the store consistent. */
  lemma DeleteOrderKeepsValid(s: Store, id: int)
    requires Valid(s)
    ensures DeleteOrder(s, id).Ok? ==> Valid(DeleteOrder(s, id).value)
  {
    if id in s.orders {
      ReleaseKeepsStockNonNegative(s, id);
    }
  }

  /** Setting a status keeps the store consistent. */
  lemma SetStatusKeepsValid(s: Store, id: int, status: Option<string>)
    requires Valid(s)
    ensures SetStatus(s, id, status).Ok? ==> Valid(SetStatus(s, id, status).value)
  {
    if id in s.orders {
      ReleaseKeepsStockNonNegative(s, id);
    }
  }

  /** Adjusting stock keeps the store consistent. */
  lemma AdjustStockKeepsValid(s: Store, pid: int, adjustment: Option<Json>)
    requires Valid(s)
    ensures AdjustStock(s, pid, adjustment).Ok? ==> Valid(AdjustStock(s, pid, adjustment).value)
  {
  }

  /** Deleting a product keeps every order item pointing at an existing product. */
  lemma DeleteProductKeepsValid(s: Store, pid: int)
    requires Valid(s)
    ensures DeleteProduct(s, pid).Ok? ==> Valid(DeleteProduct(s, pid).value)
  {
  }

  /** Creating a product with a non-negative (or default) stock keeps the store consistent. */
  lemma CreateProductKeepsValid(s: Store, req: ProductRequest)
    requires Valid(s)
    requires req.stock.GetOr(DefaultStock) >= 0
    ensures CreateProduct(s, req).Ok? ==> Valid(CreateProduct(s, req).value.0)
  {
  }

  /** Updating a product without a negative stock value keeps the store consistent. */
  lemma UpdateProductKeepsValid(s: Store, pid: int, patch: ProductPatch)
    requires Valid(s)
    requires patch.stock.Some? ==> patch.stock.value >= 0
    ensures UpdateProduct(s, pid, patch).Ok? ==> Valid(UpdateProduct(s, pid, patch).value)
  {
  }

  /** In a consistent store `calculate_total` recomputes exactly the stored total: it changes nothing. */
  lemma CalculateTotalChangesNothing(s: Store, id: int)
    requires TotalsMatchItems(s)
    requires id in s.orders
    ensures CalculateTotal(s.orders[id]) == (s.orders[id], s.orders[id].total)
  {
  }

  /** A created order keeps every status known exactly when the status it is created with is known. */
  lemma CreateOrderStatusesKnown(s: Store, req: CreateRequest, user: int)
    requires StatusesKnown(s)
    requires CreateOrder(s, req, user).Ok?
    ensures StatusesKnown(CreateOrder(s, req, user).value.store) <==> req.status.GetOr(Pending) in ValidStatuses
  {
  }

  /** The general update keeps every status known exactly when the status it leaves the order in is known. */
  lemma UpdateOrderStatusesKnown(s: Store, id: int, req: UpdateRequest)
    requires StatusesKnown(s)
    requires UpdateOrder(s, id, req).Ok?
    ensures StatusesKnown(UpdateOrder(s, id, req).value) <==> req.status.GetOr(s.orders[id].status) in ValidStatuses
  {
  }

  /** The status route and deletion never leave an order in an unknown status. */
  lemma SetStatusAndDeleteKeepStatusesKnown(s: Store, id: int, status: Option<string>)
    requires StatusesKnown(s)
    ensures SetStatus(s, id, status).Ok? ==> StatusesKnown(SetStatus(s, id, status).value)
    ensures DeleteOrder(s, id).Ok? ==> StatusesKnown(DeleteOrder(s, id).value)
  {
  }
}

=== FILE: ledger.dfy ===
/**
 Stock reservation and release: the item loops the order routes run against the
 product table (routes/orders.py). Reservation walks the item payloads in the order
 given and checks each one against the stock left by the items before it.
 */
module Ledger {
  import opened Common
  import opened Records

  /** One entry of an order's `items` payload: `{product_id, quantity, price?}`, each possibly missing. */
  datatype ItemRequest = ItemRequest(productId: Option<int>, quantity: Option<int>, price: Option<Cents>)

  /** Which route runs the loop: create validates each payload first, update reads the keys directly. */
  datatype Mode = Creating | Replacing

  /** The product table after a successful reservation, and the items it produced. */
  datatype Reservation = Reservation(products: map<int, Product>, items: seq<OrderItem>)

  /** An item payload create accepts: a truthy product id and a truthy quantity. */
  predicate WellFormed(req: ItemRequest)
  {
    req.productId.Some? && req.productId.value != 0 && req.quantity.Some? && req.quantity.value != 0
  }

  /** `item` is what `req` becomes against `products`: its id, its quantity, its price or the product's. */
  predicate ItemFrom(req: ItemRequest, item: OrderItem, products: map<int, Product>)
  {
    && req.productId == Some(item.productId)
    && req.quantity == Some(item.quantity)
    && item.productId in products
    && item.priceAtOrder == req.price.GetOr(products[item.productId].price)
  }

  /** Total quantity the payloads ask of product `p` (a missing quantity asks nothing). */
  function Requested(reqs: seq<ItemRequest>, p: int): int
  {
    if reqs == [] then 0
    else (if reqs[0].productId == Some(p) then reqs[0].quantity.GetOr(0) else 0) + Requested(reqs[1..], p)
  }

  /** `products` with `qty` taken from the stock of `p`. */
  function Take(products: map<int, Product>, p: int, qty: int): (r: map<int, Product>)
    requires p in products
    ensures r.Keys == products.Keys
  {
    products[p := products[p].(stock := products[p].stock - qty)]
  }

  /**
   Gives back to stock the quantity of every item whose product still exists, item by item
   (the restore loops of update, delete and cancel).
   */
  function Release(products: map<int, Product>, items: seq<OrderItem>): (r: map<int, Product>)
    ensures r.Keys == products.Keys
    ensures forall p :: p in products ==> r[p] == products[p].(stock := products[p].stock + Reserved(items, p))
    decreases |items|
  {
    if items == [] then products
    else
      var it := items[0];
      var next := if it.productId in products then Take(products, it.productId, -it.quantity) else products;
      Release(next, items[1..])
  }

  /** The checks one payload passes before it is reserved, in the order the route makes them. */
  function CheckItem(products: map<int, Product>, req: ItemRequest, mode: Mode): (r: Result<OrderItem>)
    ensures r.Ok? ==> ItemFrom(req, r.value, products) && r.value.quantity <= products[r.value.productId].stock
    ensures r.Ok? <==> Resolves(products, req, mode) && req.quantity.value <= products[req.productId.value].stock
    ensures r == Err(InsufficientStock) <==>
              Resolves(products, req, mode) && products[req.productId.value].stock < req.quantity.value
    ensures r == Err(Validation) <==> mode == Creating && !WellFormed(req)
    ensures mode == Creating && WellFormed(req) && req.productId.value !in products ==> r == Err(NotFound)
    ensures mode == Replacing && req.productId.None? ==> r == Err(MissingKey)
    ensures mode == Replacing && req.productId.Some? && req.productId.value !in products ==> r == Err(NotFound)
    ensures mode == Replacing && req.productId.Some? && req.productId.value in products && req.quantity.None? ==>
              r == Err(MissingKey)
    ensures r == Err(MissingKey) ==> mode == Replacing && (req.productId.None? || req.quantity.None?)
    ensures r == Err(NotFound) ==> req.productId.Some? && req.productId.value !in products
    ensures r.Err? ==> r.error in {Validation, NotFound, InsufficientStock, MissingKey}
  {
    match mode
    case Creating =>
      if !WellFormed(req) then Err(Validation)
      else if req.productId.value !in products then Err(NotFound)
      else if products[req.productId.value].stock < req.quantity.value then Err(InsufficientStock)
      else Ok(OrderItem(req.productId.value, req.quantity.value, req.price.GetOr(products[req.productId.value].price)))
    case Replacing =>
      if req.productId.None? then Err(MissingKey)
      else if req.productId.value !in products then Err(NotFound)
      else if req.quantity.None? then Err(MissingKey)
      else if products[req.productId.value].stock < req.quantity.value then Err(InsufficientStock)
      else Ok(OrderItem(req.productId.value, req.quantity.value, req.price.GetOr(products[req.productId.value].price)))
  }

  /**
   Reserves the payloads in order: each is checked against the stock left after the ones
   before it, and its quantity is taken from stock. Nothing of a failed reservation survives;
   which payload decides the error is stated by `FailedPrefixDecides` and `ReserveShortfallTraced`.
   */
  function Reserve(products: map<int, Product>, reqs: seq<ItemRequest>, mode: Mode): (r: Result<Reservation>)
    ensures r.Ok? ==> |r.value.items| == |reqs|
    ensures r.Ok? ==> forall i :: 0 <= i < |reqs| ==> ItemFrom(reqs[i], r.value.items[i], products)
    ensures r.Ok? ==> r.value.products.Keys == products.Keys
    ensures r.Ok? ==> forall p :: p in products ==>
              r.value.products[p] == products[p].(stock := products[p].stock - Reserved(r.value.items, p))
    ensures r.Ok? ==> forall p :: p in products && products[p].stock >= 0 ==> r.value.products[p].stock >= 0
    ensures r == Err(Validation) ==> mode == Creating && exists i :: 0 <= i < |reqs| && !WellFormed(reqs[i])
    ensures r == Err(MissingKey) ==>
              mode == Replacing && exists i :: 0 <= i < |reqs| && (reqs[i].productId.None? || reqs[i].quantity.None?)
    ensures r == Err(NotFound) ==>
              exists i :: 0 <= i < |reqs| && reqs[i].productId.Some? && reqs[i].productId.value !in products
    ensures r.Err? ==> r.error in {Validation, NotFound, InsufficientStock, MissingKey}
  {
    ReserveEachErrors(products, reqs, mode);
    ReserveEach(products, reqs, mode)
  }

  /** The item-by-item loop behind `Reserve`, with what a successful run leaves behind. */
  function ReserveEach(products: map<int, Product>, reqs: seq<ItemRequest>, mode: Mode): (r: Result<Reservation>)
    ensures r.Ok? ==> |r.value.items| == |reqs|
    ensures r.Ok? ==> forall i :: 0 <= i < |reqs| ==> ItemFrom(reqs[i], r.value.items[i], products)
    ensures r.Ok? ==> r.value.products.Keys == products.Keys
    ensures r.Ok? ==> forall p :: p in products ==>
              r.value.products[p] == products[p].(stock := products[p].stock - Reserved(r.value.items, p))
    ensures r.Ok? ==> forall p :: p in products && products[p].stock >= 0 ==> r.value.products[p].stock >= 0
    decreases |reqs|
  {
    if reqs == [] then Ok(Reservation(products, []))
    else
      match CheckItem(products, reqs[0], mode)
      case Err(e) => Err(e)
      case Ok(item) =>
        var taken := Take(products, item.productId, item.quantity);
        match ReserveEach(taken, reqs[1..], mode)
        case Err(e) => Err(e)
        case Ok(rest) =>
          assert ([item] + rest.items)[0] == item && ([item] + rest.items)[1..] == rest.items;
          assert forall p :: p in products ==>
                   rest.products[p] == products[p].(stock := products[p].stock - Reserved([item] + rest.items, p)) by {
            forall p | p in products
              ensures rest.products[p] == products[p].(stock := products[p].stock - Reserved([item] + rest.items, p))
            {
              assert taken[p] == products[p].(stock := products[p].stock - (if item.productId == p then item.quantity else 0));
              assert Reserved([item] + rest.items, p)
                     == (if item.productId == p then item.quantity else 0) + Reserved(rest.items, p);
            }
          }
          Ok(Reservation(rest.products, [item] + rest.items))
  }

  /** A failed run names its error after a payload that shows it. */
  lemma {:induction false} ReserveEachErrors(products: map<int, Product>, reqs: seq<ItemRequest>, mode: Mode)
    ensures var r := ReserveEach(products, reqs, mode);
            && (r == Err(Validation) ==> mode == Creating && exists i :: 0 <= i < |reqs| && !WellFormed(reqs[i]))
            && (r == Err(MissingKey) ==>
                  mode == Replacing && exists i :: 0 <= i < |reqs| && (reqs[i].productId.None? || reqs[i].quantity.None?))
            && (r == Err(NotFound) ==>
                  exists i :: 0 <= i < |reqs| && reqs[i].productId.Some? && reqs[i].productId.value !in products)
            && (r.Err? ==> r.error in {Validation, NotFound, InsufficientStock, MissingKey})
    decreases |reqs|
  {
    if reqs != [] {
      match CheckItem(products, reqs[0], mode)
      case Err(_) =>
      case Ok(item) =>
        var taken := Take(products, item.productId, item.quantity);
        ReserveEachErrors(taken, reqs[1..], mode);
        assert forall i :: 0 <= i < |reqs[1..]| ==> reqs[1..][i] == reqs[i + 1];
    }
  }

  /**
   Payload `i` resolves but asks more than the stock its product has left once the payloads
   before it have been reserved.
   */
  predicate ShortAt(products: map<int, Product>, reqs: seq<ItemRequest>, mode: Mode, i: int)
    requires 0 <= i < |reqs|
  {
    && Resolves(products, reqs[i], mode)
    && products[reqs[i].productId.value].stock - Requested(reqs[..i], reqs[i].productId.value) < reqs[i].quantity.value
  }

  /**
   A reservation that fails for lack of stock fails at a payload that resolves and asks more
   than its product has left after the payloads before it.
   */
  lemma {:induction false} ReserveShortfallTraced(products: map<int, Product>, reqs: seq<ItemRequest>, mode: Mode)
    requires Reserve(products, reqs, mode) == Err(InsufficientStock)
    ensures exists i :: 0 <= i < |reqs| && ShortAt(products, reqs, mode, i)
    decreases |reqs|
  {
    match CheckItem(products, reqs[0], mode)
    case Err(_) =>
      assert reqs[..0] == [];
      assert ShortAt(products, reqs, mode, 0);
    case Ok(item) =>
      ReserveShortfallTraced(Take(products, item.productId, item.quantity), reqs[1..], mode);
      ShortfallCarriesBack(products, reqs, mode, item);
  }

  /**
   The first failing payload decides the outcome: once a prefix of the payloads fails,
   whatever follows it is never looked at.
   */
  lemma {:induction false} FailedPrefixDecides(products: map<int, Product>, a: seq<ItemRequest>, b: seq<ItemRequest>, mode: Mode)
    requires Reserve(products, a, mode).Err?
    ensures Reserve(products, a + b, mode) == Reserve(products, a, mode)
    decreases |a|
  {
    assert (a + b)[0] == a[0];
    assert (a + b)[1..] == a[1..] + b;
    match CheckItem(products, a[0], mode)
    case Err(_) =>
    case Ok(item) =>
      FailedPrefixDecides(Take(products, item.productId, item.quantity), a[1..], b, mode);
  }

  /** A shortfall after the first payload was reserved is a shortfall of the whole list. */
  lemma ShortfallCarriesBack(products: map<int, Product>, reqs: seq<ItemRequest>, mode: Mode, item: OrderItem)
    requires reqs != []
    requires CheckItem(products, reqs[0], mode) == Ok(item)
    requires exists j :: 0 <= j < |reqs[1..]| && ShortAt(Take(products, item.productId, item.quantity), reqs[1..], mode, j)
    ensures exists i :: 0 <= i < |reqs| && ShortAt(products, reqs, mode, i)
  {
    var taken := Take(products, item.productId, item.quantity);
    var rest := reqs[1..];
    var j :| 0 <= j < |rest| && ShortAt(taken, rest, mode, j);
    var p := rest[j].productId.value;
    assert reqs[j + 1] == rest[j];
    assert reqs[..j + 1][1..] == rest[..j];
    assert Requested(reqs[..j + 1], p) == (if item.productId == p then item.quantity else 0) + Requested(rest[..j], p);
    assert ShortAt(products, reqs, mode, j + 1);
  }

  /** No payload carries a negative quantity (the routes themselves never reject one). */
  predicate NoNegativeQuantity(reqs: seq<ItemRequest>)
  {
    forall i :: 0 <= i < |reqs| && reqs[i].quantity.Some? ==> reqs[i].quantity.value >= 0
  }

  /** With no negative quantity, no product is asked for a negative amount. */
  lemma {:induction false} RequestedNonNegative(reqs: seq<ItemRequest>, p: int)
    requires NoNegativeQuantity(reqs)
    ensures Requested(reqs, p) >= 0
  {
    if reqs != [] {
      RequestedNonNegative(reqs[1..], p);
    }
  }

  /** Some payload names product `p`. */
  predicate Named(reqs: seq<ItemRequest>, p: int)
  {
    exists i :: 0 <= i < |reqs| && reqs[i].productId == Some(p)
  }

  /** A product no payload names is asked for nothing. */
  lemma {:induction false} UnnamedNotRequested(reqs: seq<ItemRequest>, p: int)
    requires !Named(reqs, p)
    ensures Requested(reqs, p) == 0
  {
    if reqs != [] {
      assert reqs[0].productId != Some(p);
      assert !Named(reqs[1..], p) by {
        forall i | 0 <= i < |reqs[1..]|
          ensures reqs[1..][i].productId != Some(p)
        {
          assert reqs[1..][i] == reqs[i + 1];
        }
      }
      UnnamedNotRequested(reqs[1..], p);
    }
  }

  /** The payload passes the route's key checks and names an existing product. */
  predicate Resolves(products: map<int, Product>, req: ItemRequest, mode: Mode)
  {
    && (if mode == Creating then WellFormed(req) else req.productId.Some? && req.quantity.Some?)
    && req.productId.value in products
  }

  /** Every payload resolves. */
  predicate AllResolve(products: map<int, Product>, reqs: seq<ItemRequest>, mode: Mode)
  {
    forall i :: 0 <= i < |reqs| ==> Resolves(products, reqs[i], mode)
  }

  /** No named product is asked for more than its stock, counting every payload that names it. */
  predicate WithinStock(products: map<int, Product>, reqs: seq<ItemRequest>)
  {
    forall p :: p in products && Named(reqs, p) ==> Requested(reqs, p) <= products[p].stock
  }

  /**
   Once the first payload's quantity fits and is taken from stock, the rest fit in what is
   left exactly when the whole list fits in the original stock.
   */
  lemma WithinStockAfterTake(products: map<int, Product>, reqs: seq<ItemRequest>, pid: int, q: int)
    requires NoNegativeQuantity(reqs) && reqs != []
    requires reqs[0].productId == Some(pid) && reqs[0].quantity == Some(q)
    requires pid in products && q <= products[pid].stock
    ensures WithinStock(products, reqs) <==> WithinStock(Take(products, pid, q), reqs[1..])
  {
    var rest, taken := reqs[1..], Take(products, pid, q);
    assert forall i :: 0 <= i < |rest| ==> rest[i] == reqs[i + 1];
    assert Named(reqs, pid) by { assert reqs[0].productId == Some(pid); }
    RequestedNonNegative(rest, pid);
    forall p | p in products
      ensures (Named(reqs, p) ==> Requested(reqs, p) <= products[p].stock)
          <==> (Named(rest, p) ==> Requested(rest, p) <= taken[p].stock)
    {
      assert Requested(reqs, p) == (if p == pid then q else 0) + Requested(rest, p);
      assert taken[p].stock == products[p].stock - (if p == pid then q else 0);
      if Named(rest, p) {
        var i :| 0 <= i < |rest| && rest[i].productId == Some(p);
        assert reqs[i + 1].productId == Some(p);
      } else {
        UnnamedNotRequested(rest, p);
      }
    }
  }

  /**
   With no negative quantity in the payloads, the cumulative per-item stock check accepts
   exactly the payload lists that resolve and whose per-product totals fit in stock:
   checking item by item against the decremented stock is the same as checking the sums.
   */
  lemma {:induction false} ReserveSucceedsIff(products: map<int, Product>, reqs: seq<ItemRequest>, mode: Mode)
    requires NoNegativeQuantity(reqs)
    ensures Reserve(products, reqs, mode).Ok? <==> AllResolve(products, reqs, mode) && WithinStock(products, reqs)
  {
    if reqs == [] {
      return;
    }
    var r0 := reqs[0];
    var rest := reqs[1..];
    assert forall i :: 0 <= i < |rest| ==> rest[i] == reqs[i + 1];
    if !Resolves(products, r0, mode) {
      assert !AllResolve(products, reqs, mode) by { assert 0 < |reqs|; }
      return;
    }
    var pid, q := r0.productId.value, r0.quantity.value;
    assert Named(reqs, pid) by { assert reqs[0].productId == Some(pid); }
    RequestedNonNegative(rest, pid);
    if products[pid].stock < q {
      assert Requested(reqs, pid) == q + Requested(rest, pid);
      assert !WithinStock(products, reqs);
      return;
    }
    var item := OrderItem(pid, q, r0.price.GetOr(products[pid].price));
    assert CheckItem(products, r0, mode) == Ok(item);
    var taken := Take(products, pid, q);
    ReserveSucceedsIff(taken, rest, mode);
    assert Reserve(products, reqs, mode).Ok? <==> Reserve(taken, rest, mode).Ok?;
    WithinStockAfterTake(products, reqs, pid, q);
    assert AllResolve(products, reqs, mode) <==> AllResolve(taken, rest, mode) by {
      assert Resolves(products, r0, mode);
      if AllResolve(taken, rest, mode) {
        forall i | 0 <= i < |reqs|
          ensures Resolves(products, reqs[i], mode)
        {
          if i > 0 {
            assert reqs[i] == rest[i - 1];
          }
        }
      }
    }
  }
}

=== FILE: orders.dfy ===
/**
 The order routes (routes/orders.py) as transitions of the store. Each route returns the
 state it commits, or the error it returns early with; an early return never reaches the
 commit, so its partial changes are discarded and the store stays as it was.
 */
module Orders {
  import opened Common
  import opened Records
  import opened Ledger

  /** Body of `POST /api/orders`. */
  datatype CreateRequest = CreateRequest(
    customerId: Option<int>,
    items: Option<seq<ItemRequest>>,
    status: Option<string>,
    notes: Option<string>)

  /** The committed store and the id the new order received. */
  datatype Created = Created(store: Store, orderId: int)

  /** Body of `PUT /api/orders/<id>`; `notes` is `Some(None)` when a JSON null is sent. */
  datatype UpdateRequest = UpdateRequest(
    status: Option<string>,
    notes: Option<Option<string>>,
    items: Option<seq<ItemRequest>>)

  /** Body of `GET /api/orders/stats`. */
  datatype OrderStats = OrderStats(
    total: int,
    pending: int,
    processing: int,
    completed: int,
    cancelled: int,
    revenue: Cents)

  /** The order request names a customer and carries at least one item. */
  predicate HasCustomerAndItems(req: CreateRequest)
  {
    req.customerId.Some? && req.customerId.value != 0 && req.items.Some? && req.items.value != []
  }

  /**
   Creates an order for an existing customer: every item is reserved in turn against the
   stock left by the items before it, the item prices are the payload's or the product's,
   and the total is the sum over the items.
   */
  function CreateOrder(s: Store, req: CreateRequest, user: int): (r: Result<Created>)
    ensures req.customerId.None? || req.customerId == Some(0) ==> r == Err(Validation)
    ensures req.customerId.Some? && req.customerId.value != 0 && (req.items.None? || req.items.value == []) ==>
              r == Err(Validation)
    ensures HasCustomerAndItems(req) && req.customerId.value !in s.customers ==> r == Err(NotFound)
    ensures HasCustomerAndItems(req) && req.customerId.value in s.customers ==>
              (r.Err? <==> Reserve(s.products, req.items.value, Creating).Err?)
    ensures HasCustomerAndItems(req) && req.customerId.value in s.customers
              && Reserve(s.products, req.items.value, Creating).Err? ==>
              r == Err(Reserve(s.products, req.items.value, Creating).error)
    ensures r.Err? ==> r.error in {Validation, NotFound, InsufficientStock}
    ensures r.Ok? ==> r.value.orderId in r.value.store.orders
    ensures r.Ok? ==>
              var t, id := r.value.store, r.value.orderId;
              var o := t.orders[id];
              && HasCustomerAndItems(req) && req.customerId.value in s.customers
              && id == NextId(s.orders.Keys)
              && id !in s.orders
              && t.orders == s.orders[id := o]
              && o.customerId == req.customerId.value
              && o.status == req.status.GetOr(Pending)
              && o.notes == req.notes
              && o.createdBy == user
              && o.total == ItemsTotal(o.items)
              && |o.items| == |req.items.value|
              && (forall i :: 0 <= i < |o.items| ==> ItemFrom(req.items.value[i], o.items[i], s.products))
              && t.products.Keys == s.products.Keys
              && (forall p :: p in s.products ==>
                    t.products[p] == s.products[p].(stock := s.products[p].stock - Reserved(o.items, p)))
              && t.customers == s.customers
  {
    if req.customerId.None? || req.customerId.value == 0 then Err(Validation)
    else if req.items.None? || req.items.value == [] then Err(Validation)
    else if req.customerId.value !in s.customers then Err(NotFound)
    else
      match Reserve(s.products, req.items.value, Creating)
      case Err(e) => Err(e)
      case Ok(res) =>
        var o := Order(req.customerId.value, req.status.GetOr(Pending), req.notes,
                       ItemsTotal(res.items), res.items, user);
        var id := NextId(s.orders.Keys);
        Ok(Created(s.(products := res.products, orders := s.orders[id := o]), id))
  }

  /**
   Updates an order: status and notes are overwritten when supplied, without any check;
   when an `items` list is supplied, every current item's quantity goes back to stock first
   and the new list is then reserved against that restored stock, replacing the items and
   the total.
   */
  function UpdateOrder(s: Store, id: int, req: UpdateRequest): (r: Result<Store>)
    ensures id !in s.orders ==> r == Err(NotFound)
    ensures id in s.orders && req.items.None? ==> r.Ok?
    ensures id in s.orders && req.items.Some? ==>
              (r.Err? <==> Reserve(Release(s.products, s.orders[id].items), req.items.value, Replacing).Err?)
    ensures id in s.orders && req.items.Some?
              && Reserve(Release(s.products, s.orders[id].items), req.items.value, Replacing).Err? ==>
              r == Err(Reserve(Release(s.products, s.orders[id].items), req.items.value, Replacing).error)
    ensures r.Err? ==> r.error in {NotFound, InsufficientStock, MissingKey}
    ensures r.Ok? ==> id in s.orders && id in r.value.orders
    ensures r.Ok? ==>
              var t, before := r.value, s.orders[id];
              var o := t.orders[id];
              && t.orders == s.orders[id := o]
              && o.customerId == before.customerId
              && o.createdBy == before.createdBy
              && o.status == req.status.GetOr(before.status)
              && o.notes == req.notes.GetOr(before.notes)
              && t.customers == s.customers
              && t.products.Keys == s.products.Keys
    ensures r.Ok? && req.items.None? ==>
              var o := r.value.orders[id];
              o.items == s.orders[id].items && o.total == s.orders[id].total && r.value.products == s.products
    ensures r.Ok? && req.items.Some? ==>
              var t, before := r.value, s.orders[id];
              var o := t.orders[id];
              && |o.items| == |req.items.value|
              && (forall i :: 0 <= i < |o.items| ==>
                    ItemFrom(req.items.value[i], o.items[i], Release(s.products, before.items)))
              && o.total == ItemsTotal(o.items)
              && (forall p :: p in s.products ==>
                    t.products[p] == s.products[p].(stock :=
                      s.products[p].stock + Reserved(before.items, p) - Reserved(o.items, p)))
  {
    if id !in s.orders then Err(NotFound)
    else
      var prior := s.orders[id];
      var o := prior.(status := req.status.GetOr(prior.status), notes := req.notes.GetOr(prior.notes));
      if req.items.None? then Ok(s.(orders := s.orders[id := o]))
      else
        match Reserve(Release(s.products, prior.items), req.items.value, Replacing)
        case Err(e) => Err(e)
        case Ok(res) =>
          Ok(s.(products := res.products,
                orders := s.orders[id := o.(items := res.items, total := ItemsTotal(res.items))]))
  }

  /** Deletes an order with its items, giving every item's quantity back to stock whatever the status. */
  function DeleteOrder(s: Store, id: int): (r: Result<Store>)
    ensures id !in s.orders ==> r == Err(NotFound)
    ensures id in s.orders ==> r.Ok?
    ensures r.Ok? ==>
              && id in s.orders
              && r.value.orders == s.orders - {id}
              && r.value.products.Keys == s.products.Keys
              && (forall p :: p in s.products ==>
                    r.value.products[p] == s.products[p].(stock := s.products[p].stock + Reserved(s.orders[id].items, p)))
              && r.value.customers == s.customers
  {
    if id !in s.orders then Err(NotFound)
    else Ok(s.(products := Release(s.products, s.orders[id].items), orders := s.orders - {id}))
  }

  /**
   Sets an order's status to one of the five known ones. Entering `cancelled` from any other
   status gives every item's quantity back to stock and keeps the items and the total;
   no other transition touches stock, leaving `cancelled` included.
   */
  function SetStatus(s: Store, id: int, status: Option<string>): (r: Result<Store>)
    ensures id !in s.orders ==> r == Err(NotFound)
    ensures id in s.orders && (status.None? || status == Some("")) ==> r == Err(Validation)
    ensures id in s.orders && status.Some? && status.value != "" && status.value !in ValidStatuses ==>
              r == Err(InvalidStatus)
    ensures id in s.orders && status.Some? && status.value in ValidStatuses ==> r.Ok?
    ensures r.Ok? ==>
              && id in s.orders && status.Some? && status.value in ValidStatuses
              && r.value.orders == s.orders[id := s.orders[id].(status := status.value)]
              && r.value.customers == s.customers
              && r.value.products.Keys == s.products.Keys
    ensures r.Ok? && status.value == Cancelled && s.orders[id].status != Cancelled ==>
              forall p :: p in s.products ==>
                r.value.products[p] == s.products[p].(stock := s.products[p].stock + Reserved(s.orders[id].items, p))
    ensures r.Ok? && (status.value != Cancelled || s.orders[id].status == Cancelled) ==>
              r.value.products == s.products
  {
    if id !in s.orders then Err(NotFound)
    else if status.None? || status.value == "" then Err(Validation)
    else if status.value !in ValidStatuses then Err(InvalidStatus)
    else
      var prior := s.orders[id];
      var products := if status.value == Cancelled && prior.status != Cancelled then Release(s.products, prior.items)
                      else s.products;
      Ok(s.(products := products, orders := s.orders[id := prior.(status := status.value)]))
  }

  /**
   The order statistics: how many orders there are, how many are pending, processing,
   completed and cancelled, and the revenue summed over the completed orders only.
   */
  function Stats(s: Store): OrderStats
  {
    OrderStats(
      |s.orders|,
      Scan(s.orders, WithStatus(Pending)),
      Scan(s.orders, WithStatus(Processing)),
      Scan(s.orders, WithStatus(Completed)),
      Scan(s.orders, WithStatus(Cancelled)),
      Scan(s.orders, Revenue))
  }

  /**
   Without negative quantities in the payload, an order is created exactly when it names an
   existing customer and at least one item, every item names an existing product, and no
   product is asked for more than its stock in total.
   */
  lemma CreateOrderSucceedsIff(s: Store, req: CreateRequest, user: int)
    requires req.items.Some? ==> NoNegativeQuantity(req.items.value)
    ensures CreateOrder(s, req, user).Ok? <==>
              && HasCustomerAndItems(req)
              && req.customerId.value in s.customers
              && AllResolve(s.products, req.items.value, Creating)
              && WithinStock(s.products, req.items.value)
  {
    if HasCustomerAndItems(req) && req.customerId.value in s.customers {
      ReserveSucceedsIff(s.products, req.items.value, Creating);
    }
  }

  /**
   Without negative quantities in a new item list, an update succeeds exactly when the order
   exists and, if items are supplied, each names an existing product with both keys present
   and the list fits in the stock as it stands once the current items are given back.
   */
  lemma UpdateOrderSucceedsIff(s: Store, id: int, req: UpdateRequest)
    requires req.items.Some? ==> NoNegativeQuantity(req.items.value)
    ensures UpdateOrder(s, id, req).Ok? <==>
              && id in s.orders
              && (req.items.Some? ==>
                    var released := Release(s.products, s.orders[id].items);
                    AllResolve(released, req.items.value, Replacing) && WithinStock(released, req.items.value))
  {
    if id in s.orders && req.items.Some? {
      ReserveSucceedsIff(Release(s.products, s.orders[id].items), req.items.value, Replacing);
    }
  }

  /** Replacing the items of an existing order with an empty list always succeeds and leaves it with no items and total 0. */
  lemma ReplaceWithNothing(s: Store, id: int, req: UpdateRequest)
    requires id in s.orders
    requires req.items == Some([])
    ensures UpdateOrder(s, id, req).Ok?
    ensures var o := UpdateOrder(s, id, req).value.orders[id];
            o.items == [] && o.total == 0
  {
  }
}

=== FILE: products.dfy ===
/**
 The catalog routes that decide what happens to a product's stock and fields
 (routes/products.py): stock adjustment, deletion guard, the low-stock query, and
 product creation and update.
 */
module Products {
  import opened Common
  import opened Records

  /** A JSON scalar as Python decodes it, as far as `isinstance(x, int)` can tell apart. */
  datatype Json = JInt(i: int) | JBool(b: bool) | JOther

  /**
   Body of `POST /api/products`; an absent and a null optional field read alike (a null
   `is_active` leaves the column default in place).
   */
  datatype ProductRequest = ProductRequest(
    name: Option<string>,
    description: Option<string>,
    price: Option<Cents>,
    stock: Option<int>,
    sku: Option<string>,
    category: Option<string>,
    active: Option<bool>)

  /** Body of `PUT /api/products/<id>`; a nullable column's field is `Some(None)` when a JSON null is sent. */
  datatype ProductPatch = ProductPatch(
    name: Option<string>,
    description: Option<Option<string>>,
    price: Option<Cents>,
    stock: Option<int>,
    sku: Option<Option<string>>,
    category: Option<Option<string>>,
    active: Option<Option<bool>>)

  /** The threshold the low-stock query uses when none (or no integer) is given. */
  const DefaultLowStockThreshold: int := 10

  /**
   The integer a JSON value counts as for `isinstance(x, int)`: integers themselves, and
   booleans, which Python treats as the integers 1 and 0.
   */
  function AsInt(v: Json): (r: Option<int>)
    ensures v.JInt? ==> r == Some(v.i)
    ensures v.JBool? ==> r.Some? && 0 <= r.value <= 1 && (r.value == 1 <==> v.b)
    ensures v.JOther? ==> r.None?
  {
    match v
    case JInt(i) => Some(i)
    case JBool(b) => Some(if b then 1 else 0)
    case JOther => None
  }

  /**
   Python's `bool` is a subclass of `int`, so the stock route takes `true` and `false` as
   the adjustments 1 and 0, with the same outcome in every case.
   */
  lemma BoolAdjustsLikeInt(s: Store, pid: int, b: bool)
    ensures AdjustStock(s, pid, Some(JBool(b))) == AdjustStock(s, pid, Some(JInt(if b then 1 else 0)))
  {
  }

  /** Some product already carries the SKU `code`. */
  predicate SkuTaken(products: map<int, Product>, code: string)
  {
    exists q :: q in products && products[q].sku == Some(code)
  }

  /**
   Adds a signed adjustment (default 0) to a product's stock, refusing a non-integer
   adjustment and any result below zero.
   */
  function AdjustStock(s: Store, pid: int, adjustment: Option<Json>): (r: Result<Store>)
    ensures pid !in s.products ==> r == Err(NotFound)
    ensures pid in s.products && adjustment.Some? && adjustment.value.JOther? ==> r == Err(Validation)
    ensures pid in s.products && adjustment.None? && s.products[pid].stock >= 0 ==> r == Ok(s)
    ensures pid in s.products && adjustment.Some? && AsInt(adjustment.value).Some? ==>
              (r.Ok? <==> s.products[pid].stock + AsInt(adjustment.value).value >= 0)
    ensures r.Err? ==> r.error in {NotFound, Validation}
    ensures r.Ok? ==>
              && pid in s.products
              && r.value.products.Keys == s.products.Keys
              && r.value.products[pid].stock >= 0
              && r.value.products[pid].stock == s.products[pid].stock + AsInt(adjustment.GetOr(JInt(0))).value
              && r.value == s.(products := s.products[pid := s.products[pid].(stock := r.value.products[pid].stock)])
  {
    if pid !in s.products then Err(NotFound)
    else
      match AsInt(adjustment.GetOr(JInt(0)))
      case None => Err(Validation)
      case Some(delta) =>
        var updated := s.products[pid].stock + delta;
        if updated < 0 then Err(Validation)
        else
          assert delta == 0 ==> s.products[pid := s.products[pid].(stock := updated)] == s.products;
          Ok(s.(products := s.products[pid := s.products[pid].(stock := updated)]))
  }

  /** Deletes a product unless some order item still names it. */
  function DeleteProduct(s: Store, pid: int): (r: Result<Store>)
    ensures pid !in s.products ==> r == Err(NotFound)
    ensures pid in s.products && Referenced(s, pid) ==> r == Err(ProductInUse)
    ensures pid in s.products && !Referenced(s, pid) ==> r.Ok?
    ensures r.Ok? ==>
              && r.value == s.(products := s.products - {pid})
              && forall id, i :: id in s.orders && 0 <= i < |s.orders[id].items| ==> s.orders[id].items[i].productId != pid
  {
    if pid !in s.products then Err(NotFound)
    else if Referenced(s, pid) then Err(ProductInUse)
    else Ok(s.(products := s.products - {pid}))
  }

  /**
   The low-stock query: the ids of the products marked active (a NULL flag is not) whose stock
   is at most the threshold (10 when none, or no integer, is given).
   */
  method LowStock(products: map<int, Product>, threshold: Option<int>) returns (ids: set<int>)
    ensures forall p :: p in ids <==>
              p in products && products[p].active == Some(true) && products[p].stock <= threshold.GetOr(DefaultLowStockThreshold)
  {
    var limit := threshold.GetOr(DefaultLowStockThreshold);
    ids := {};
    var todo := products.Keys;
    while todo != {}
      invariant todo <= products.Keys
      invariant forall p :: p in ids <==>
                  p in products && p !in todo && products[p].active == Some(true) && products[p].stock <= limit
      decreases todo
    {
      NonEmptyHasMember(todo);
      var k :| k in todo;
      if products[k].active == Some(true) && products[k].stock <= limit {
        ids := ids + {k};
      }
      todo := todo - {k};
    }
  }

  /**
   Creates a product: a name and a non-zero price are required and a non-empty SKU must be
   unused; the stock defaults to 0 and the product is active unless told otherwise.
   */
  function CreateProduct(s: Store, req: ProductRequest): (r: Result<(Store, int)>)
    ensures req.name.None? || req.name == Some("") ==> r == Err(Validation)
    ensures req.price.None? || req.price == Some(0) ==> r == Err(Validation)
    ensures req.sku.Some? && req.sku.value != "" && SkuTaken(s.products, req.sku.value) ==> r == Err(Validation)
    ensures r.Ok? <==>
              && req.name.Some? && req.name.value != ""
              && req.price.Some? && req.price.value != 0
              && !(req.sku.Some? && req.sku.value != "" && SkuTaken(s.products, req.sku.value))
    ensures r.Err? ==> r.error == Validation
    ensures r.Ok? ==>
              var t, id := r.value.0, r.value.1;
              && id == NextId(s.products.Keys)
              && id !in s.products
              && id in t.products
              && t.products == s.products[id := t.products[id]]
              && t.products[id] == Product(req.name.value, req.description, req.price.value,
                                            req.stock.GetOr(DefaultStock), req.sku, req.category,
                                            Some(req.active.GetOr(true)))
              && req.name.value != "" && req.price.value != 0
              && t.orders == s.orders && t.customers == s.customers
  {
    if req.name.None? || req.name.value == "" then Err(Validation)
    else if req.price.None? || req.price.value == 0 then Err(Validation)
    else if req.sku.Some? && req.sku.value != "" && SkuTaken(s.products, req.sku.value) then Err(Validation)
    else
      var product := Product(req.name.value, req.description, req.price.value, req.stock.GetOr(DefaultStock),
                             req.sku, req.category, Some(req.active.GetOr(true)));
      var id := NextId(s.products.Keys);
      Ok((s.(products := s.products[id := product]), id))
  }

  /** The patch would give the product a non-empty SKU different from its own that another product has. */
  predicate SkuClash(products: map<int, Product>, pid: int, patch: ProductPatch)
    requires pid in products
  {
    && patch.sku.Some? && patch.sku.value.Some? && patch.sku.value.value != ""
    && patch.sku.value != products[pid].sku
    && SkuTaken(products, patch.sku.value.value)
  }

  /** Updates a product: every supplied field is overwritten and every other one kept. */
  function UpdateProduct(s: Store, pid: int, patch: ProductPatch): (r: Result<Store>)
    ensures pid !in s.products ==> r == Err(NotFound)
    ensures pid in s.products ==> (r == Err(Validation) <==> SkuClash(s.products, pid, patch))
    ensures pid in s.products ==> (r.Ok? <==> !SkuClash(s.products, pid, patch))
    ensures r.Ok? ==> pid in s.products && pid in r.value.products
    ensures r.Ok? ==>
              var before := s.products[pid];
              var after := r.value.products[pid];
              && r.value == s.(products := s.products[pid := after])
              && after.name == patch.name.GetOr(before.name)
              && after.description == patch.description.GetOr(before.description)
              && after.price == patch.price.GetOr(before.price)
              && after.stock == patch.stock.GetOr(before.stock)
              && after.sku == patch.sku.GetOr(before.sku)
              && after.category == patch.category.GetOr(before.category)
              && after.active == patch.active.GetOr(before.active)
  {
    if pid !in s.products then Err(NotFound)
    else if SkuClash(s.products, pid, patch) then Err(Validation)
    else
      var p := s.products[pid];
      var updated := Product(
        patch.name.GetOr(p.name),
        patch.description.GetOr(p.description),
        patch.price.GetOr(p.price),
        patch.stock.GetOr(p.stock),
        patch.sku.GetOr(p.sku),
        patch.category.GetOr(p.category),
        patch.active.GetOr(p.active));
      Ok(s.(products := s.products[pid := updated]))
  }
}

=== FILE: quirks.dfy ===
/**
 Worked examples of the routes on a one-product shop: the cancel scenario, and
 the behaviours of the routes that the consistency conditions have to work around
 (negative quantities, order-dependent stock checks, unchecked statuses, double release,
 negative stock counts from the catalog routes, reused row ids).
 */
module Quirks {
  import opened Common
  import opened Records
  import opened Ledger
  import opened Orders
  import opened Products

  /** Product 1 of the shop: 20.00 a unit. */
  function Widget(stock: int): Product
  {
    Product("widget", None, 2000, stock, None, None, Some(true))
  }

  /** A shop with product 1 in the given stock, customer 7, and no orders yet. */
  function Shop(stock: int): Store
  {
    Store(map[1 := Widget(stock)], {7}, map[])
  }

  /** An order for customer 7 of `qty` units of product 1, at the catalog price. */
  function OneLine(qty: int, status: Option<string>): CreateRequest
  {
    CreateRequest(Some(7), Some([ItemRequest(Some(1), Some(qty), None)]), status, None)
  }

  /**
   Stock 10 at 20.00: ordering 3 leaves 7 in stock and a total of 60.00; cancelling brings
   stock back to 10 and keeps the total; reopening the order takes nothing from stock again.
   */
  lemma CancelThenReopen()
    ensures var c := CreateOrder(Shop(10), OneLine(3, None), 42);
            && c.Ok? && c.value.orderId == 1
            && c.value.store.products[1].stock == 7
            && c.value.store.orders[1].total == 6000
            && c.value.store.orders[1].status == Pending
            && var cancelled := SetStatus(c.value.store, 1, Some(Cancelled));
               && cancelled.Ok?
               && cancelled.value.products[1].stock == 10
               && cancelled.value.orders[1].total == 6000
               && var reopened := SetStatus(cancelled.value, 1, Some(Pending));
                  && reopened.Ok?
                  && reopened.value.products[1].stock == 10
                  && reopened.value.orders[1].status == Pending
  {
  }

  /**
   A negative quantity passes create's truthiness check and its stock check, and raises
   stock; once that extra stock is adjusted away, cancelling the order drives stock below
   zero.
   */
  lemma NegativeQuantityDrivesStockNegative()
    ensures var c := CreateOrder(Shop(0), OneLine(-5, None), 42);
            && c.Ok?
            && c.value.store.products[1].stock == 5
            && var adjusted := AdjustStock(c.value.store, 1, Some(JInt(-5)));
               && adjusted.Ok?
               && adjusted.value.products[1].stock == 0
               && var cancelled := SetStatus(adjusted.value, 1, Some(Cancelled));
                  && cancelled.Ok?
                  && cancelled.value.products[1].stock == -5
                  && !StockNonNegative(cancelled.value)
  {
  }

  /**
   With a negative quantity in the list the stock check depends on the order of the items:
   against a stock of 3, "-5 then 7" is accepted and "7 then -5" is refused.
   */
  lemma StockCheckDependsOnItemOrder()
    ensures Reserve(map[1 := Widget(3)], [ItemRequest(Some(1), Some(-5), None), ItemRequest(Some(1), Some(7), None)], Creating).Ok?
    ensures Reserve(map[1 := Widget(3)], [ItemRequest(Some(1), Some(7), None), ItemRequest(Some(1), Some(-5), None)], Creating)
            == Err(InsufficientStock)
  {
  }

  /**
   Create stores any status it is given: an order created as "on-hold" is counted in none of
   the statistics' status counts.
   */
  lemma CreateStoresUncheckedStatus()
    ensures var c := CreateOrder(Shop(10), OneLine(1, Some("on-hold")), 42);
            && c.Ok?
            && c.value.store.orders[1].status == "on-hold"
            && "on-hold" !in ValidStatuses
            && Stats(c.value.store).total == 1
            && Stats(c.value.store).pending == 0
  {
    OneUnitOrderTakesOne(Shop(10), Some("on-hold"));
  }

  /**
   An order created as cancelled holds its stock for good: the cancel transition releases
   nothing because the order is already cancelled.
   */
  lemma CreatedCancelledNeverReleases()
    ensures var c := CreateOrder(Shop(10), OneLine(4, Some(Cancelled)), 42);
            && c.Ok?
            && c.value.store.products[1].stock == 6
            && var again := SetStatus(c.value.store, 1, Some(Cancelled));
               again.Ok? && again.value.products[1].stock == 6
  {
  }

  /** Deleting a cancelled order gives its quantities back a second time: stock ends above where it began. */
  lemma DeleteAfterCancelReleasesTwice()
    ensures var c := CreateOrder(Shop(10), OneLine(3, None), 42);
            && c.Ok?
            && var cancelled := SetStatus(c.value.store, 1, Some(Cancelled));
               && cancelled.Ok?
               && var deleted := DeleteOrder(cancelled.value, 1);
                  && deleted.Ok?
                  && deleted.value.products[1].stock == 13
                  && deleted.value.orders == map[]
  {
  }

  /** The product routes take a negative stock count as given, which no order route would leave behind. */
  lemma CreateProductAcceptsNegativeStock()
    ensures var c := CreateProduct(Shop(10), ProductRequest(Some("gadget"), None, Some(500), Some(-4), None, None, None));
            && c.Ok?
            && c.value.0.products[c.value.1].stock == -4
            && !StockNonNegative(c.value.0)
  {
  }

  /** An order for one unit succeeds wherever product 1 has a unit left, and holds exactly that unit. */
  lemma OneUnitOrderTakesOne(s: Store, status: Option<string>)
    requires 7 in s.customers && 1 in s.products && s.products[1].stock >= 1
    ensures var c := CreateOrder(s, OneLine(1, status), 42);
            && c.Ok?
            && c.value.store.products[1].stock == s.products[1].stock - 1
            && Reserved(c.value.store.orders[c.value.orderId].items, 1) == 1
  {
    var reqs := OneLine(1, status).items.value;
    assert reqs[1..] == [];
    var item := CheckItem(s.products, reqs[0], Creating).value;
    assert Reserve(Take(s.products, 1, 1), reqs[1..], Creating) == Ok(Reservation(Take(s.products, 1, 1), []));
    assert Reserve(s.products, reqs, Creating).value.items == [item];
  }

  /**
   Row ids are one past the largest id in the table, so deleting the order just created frees
   its id: the table is back as it was, and the next order created gets the same id again.
   */
  lemma DeleteNewestThenCreateReusesId(s: Store, req: CreateRequest, user: int, req2: CreateRequest, user2: int)
    requires CreateOrder(s, req, user).Ok?
    ensures var c := CreateOrder(s, req, user).value;
            var d := DeleteOrder(c.store, c.orderId);
            && d.Ok?
            && d.value.orders == s.orders
            && (CreateOrder(d.value, req2, user2).Ok? ==> CreateOrder(d.value, req2, user2).value.orderId == c.orderId)
  {
    var c := CreateOrder(s, req, user).value;
    var d := DeleteOrder(c.store, c.orderId).value;
    assert d.orders == s.orders;
  }

  /** The same on a fresh shop: create (id 1), create (id 2), delete 2, create again gives id 2 once more. */
  lemma DeleteThenCreateReusesId(stock: int)
    requires stock >= 2
    ensures var first := CreateOrder(Shop(stock), OneLine(1, None), 42);
            && first.Ok? && first.value.orderId == 1
            && var second := CreateOrder(first.value.store, OneLine(1, None), 42);
               && second.Ok? && second.value.orderId == 2
               && var deleted := DeleteOrder(second.value.store, 2);
                  && deleted.Ok?
                  && var third := CreateOrder(deleted.value, OneLine(1, None), 42);
                     third.Ok? && third.value.orderId == 2
  {
    var first := CreateOrder(Shop(stock), OneLine(1, None), 42);
    OneUnitOrderTakesOne(Shop(stock), None);
    var s1 := first.value.store;
    assert s1.orders.Keys == {1};
    var second := CreateOrder(s1, OneLine(1, None), 42);
    OneUnitOrderTakesOne(s1, None);
    assert second.value.orderId == 2;
    var deleted := DeleteOrder(second.value.store, 2).value;
    OneUnitOrderTakesOne(deleted, None);
    DeleteNewestThenCreateReusesId(s1, OneLine(1, None), 42, OneLine(1, None), 42);
  }
}

=== FILE: records.dfy ===
/**
 The persistent records the order routes work on (Product, Order, OrderItem and the
 customer table), the derived quantities the model classes compute, and the
 consistency conditions a store is expected to keep.

 Money is held in integer cents: the price and total columns are `Numeric(10, 2)`.
 */
module Records {
  import opened Common

  type Cents = int

  const Pending: string := "pending"
  const Processing: string := "processing"
  const Shipped: string := "shipped"
  const Completed: string := "completed"
  const Cancelled: string := "cancelled"

  /** The statuses the status route accepts; the status column itself is a free string. */
  const ValidStatuses: set<string> := {Pending, Processing, Shipped, Completed, Cancelled}

  /** Column default of `Product.stock_quantity`. */
  const DefaultStock: int := 0

  /** A product row; `active` is `None` when `is_active` holds NULL, which the column allows. */
  datatype Product = Product(
    name: string,
    description: Option<string>,
    price: Cents,
    stock: int,
    sku: Option<string>,
    category: Option<string>,
    active: Option<bool>)

  /** One line of an order; `priceAtOrder` is the unit price snapshotted when the line was reserved. */
  datatype OrderItem = OrderItem(productId: int, quantity: int, priceAtOrder: Cents)

  /** An order owns its items: they live and die with it (the `delete-orphan` cascade). */
  datatype Order = Order(
    customerId: int,
    status: string,
    notes: Option<string>,
    total: Cents,
    items: seq<OrderItem>,
    createdBy: int)

  /** The database: products by id, the ids of existing customers, and orders by id. */
  datatype Store = Store(
    products: map<int, Product>,
    customers: set<int>,
    orders: map<int, Order>)

  // ---------------------------------------------------------------------------
  // Row ids
  // ---------------------------------------------------------------------------

  /** A non-empty set of ids has a member to pick. */
  lemma NonEmptyHasMember(ids: set<int>)
    requires ids != {}
    ensures exists k :: k in ids
  {
    if forall k :: k !in ids {
      assert false;
    }
  }

  /** A non-empty finite set of ids has a largest member. */
  lemma HasLargest(ids: set<int>)
    requires ids != {}
    ensures exists k :: k in ids && forall j :: j in ids ==> j <= k
    decreases ids
  {
    NonEmptyHasMember(ids);
    var x :| x in ids;
    var rest := ids - {x};
    assert forall j :: j in ids ==> j == x || j in rest;
    if rest == {} {
      assert forall j :: j in ids ==> j <= x;
    } else {
      HasLargest(rest);
      var k :| k in rest && forall j :: j in rest ==> j <= k;
      if x <= k {
        assert forall j :: j in ids ==> j <= k;
      } else {
        assert forall j :: j in ids ==> j <= x;
      }
    }
  }

  /** The largest id of a non-empty set. */
  function Largest(ids: set<int>): (r: int)
    requires ids != {}
    ensures r in ids
    ensures forall k :: k in ids ==> k <= r
  {
    HasLargest(ids);
    var k :| k in ids && forall j :: j in ids ==> j <= k;
    k
  }

  /**
   The id SQLite gives a row inserted without one into a table whose `INTEGER PRIMARY KEY`
   has no AUTOINCREMENT: one more than the largest id in the table, or 1 in an empty table.
   The id of a deleted newest row is therefore handed out again.
   */
  function NextId(ids: set<int>): (r: int)
    ensures ids == {} ==> r == 1
    ensures ids != {} ==> r - 1 in ids
    ensures forall k :: k in ids ==> k < r
  {
    if ids == {} then 1 else Largest(ids) + 1
  }

  /** Sum of quantity × price-at-order over a sequence of items. */
  function ItemsTotal(items: seq<OrderItem>): Cents
  {
    if items == [] then 0 else items[0].quantity * items[0].priceAtOrder + ItemsTotal(items[1..])
  }

  /** Total quantity the items hold of product `p`: what they took from (or give back to) its stock. */
  function Reserved(items: seq<OrderItem>, p: int): int
  {
    if items == [] then 0
    else (if items[0].productId == p then items[0].quantity else 0) + Reserved(items[1..], p)
  }

  /** Items with no negative quantity hold a non-negative amount of every product. */
  lemma {:induction false} ReservedNonNegative(items: seq<OrderItem>, p: int)
    requires forall i :: 0 <= i < |items| ==> items[i].quantity >= 0
    ensures Reserved(items, p) >= 0
  {
    if items != [] {
      ReservedNonNegative(items[1..], p);
    }
  }

  /** The line total an item reports: quantity × price, or 0 when the price is null or zero. */
  function LineTotal(item: OrderItem): (r: Cents)
    ensures r == item.quantity * item.priceAtOrder
  {
    if item.priceAtOrder == 0 then 0 else item.quantity * item.priceAtOrder
  }

  /** Sum of the reported line totals of the items. */
  function LineTotals(items: seq<OrderItem>): Cents
  {
    if items == [] then 0 else LineTotal(items[0]) + LineTotals(items[1..])
  }

  /**
   `Order.calculate_total`: stores the sum of the items' quantity × price-at-order as the
   order's total and returns that same value.
   */
  function CalculateTotal(o: Order): (r: (Order, Cents))
    ensures r.0.total == r.1
    ensures r.0 == o.(total := r.0.total)
    ensures r.1 == LineTotals(o.items)
  {
    LineTotalsIsItemsTotal(o.items);
    var total := ItemsTotal(o.items);
    (o.(total := total), total)
  }

  /** The reported line totals always add up to the order's item total. */
  lemma {:induction false} LineTotalsIsItemsTotal(items: seq<OrderItem>)
    ensures LineTotals(items) == ItemsTotal(items)
  {
    if items != [] {
      LineTotalsIsItemsTotal(items[1..]);
    }
  }

  /** A product is named by some item of some order (the `order_items` back-reference is non-empty). */
  predicate Referenced(s: Store, p: int)
  {
    exists id, i :: id in s.orders && 0 <= i < |s.orders[id].items| && s.orders[id].items[i].productId == p
  }

  // ---------------------------------------------------------------------------
  // Scans over the order table
  // ---------------------------------------------------------------------------

  /** What one order contributes to a scan of the order table. */
  datatype Measure =
    | Every                          // every order counts 1
    | WithStatus(status: string)     // orders in one status count 1
    | UnlistedStatus                 // orders whose status is none of the five count 1
    | Revenue                        // completed orders count their total
    | OrdersOf(customer: int)        // the customer's orders count 1
    | SpentBy(customer: int)         // the customer's orders count their total
    | Held(product: int)             // non-cancelled orders count the quantity they hold of a product

  function Weight(o: Order, m: Measure): int
  {
    match m
    case Every => 1
    case WithStatus(st) => if o.status == st then 1 else 0
    case UnlistedStatus => if o.status in ValidStatuses then 0 else 1
    case Revenue => if o.status == Completed then o.total else 0
    case OrdersOf(c) => if o.customerId == c then 1 else 0
    case SpentBy(c) => if o.customerId == c then o.total else 0
    case Held(p) => if o.status == Cancelled then 0 else Reserved(o.items, p)
  }

  /** What the order with id `k`, if any, contributes. */
  function Contrib(orders: map<int, Order>, k: int, m: Measure): int
  {
    if k in orders then Weight(orders[k], m) else 0
  }

  /** The scan of the orders with ids in `[0, n)`. */
  function SumOver(orders: map<int, Order>, n: nat, m: Measure): int
  {
    if n == 0 then 0 else SumOver(orders, n - 1, m) + Contrib(orders, n - 1, m)
  }

  /** A scan range `[0, Span)` that reaches past every id of the table. */
  function Span(orders: map<int, Order>): (r: nat)
    ensures forall k :: k in orders ==> k < r
  {
    var n := NextId(orders.Keys);
    if n < 0 then 0 else n
  }

  /** The scan of the whole order table (its ids are row ids, so none is below 0). */
  function Scan(orders: map<int, Order>, m: Measure): int
  {
    SumOver(orders, Span(orders), m)
  }

  /** `Customer.to_dict` "total_orders": how many orders the customer has. */
  function TotalOrders(s: Store, customer: int): int
  {
    Scan(s.orders, OrdersOf(customer))
  }

  /** `Customer.to_dict` "total_spent": the sum of the totals of the customer's orders. */
  function TotalSpent(s: Store, customer: int): Cents
  {
    Scan(s.orders, SpentBy(customer))
  }

  // ---------------------------------------------------------------------------
  // Consistency of a store
  // ---------------------------------------------------------------------------

  /** No product has negative stock. */
  predicate StockNonNegative(s: Store)
  {
    forall p :: p in s.products ==> s.products[p].stock >= 0
  }

  /** No stored item holds a negative quantity. */
  predicate QuantitiesNonNegative(s: Store)
  {
    forall id, i :: id in s.orders && 0 <= i < |s.orders[id].items| ==> s.orders[id].items[i].quantity >= 0
  }

  /** Every order's total is the sum over its current items. */
  predicate TotalsMatchItems(s: Store)
  {
    forall id :: id in s.orders ==> s.orders[id].total == ItemsTotal(s.orders[id].items)
  }

  /** Every item names an existing product. */
  predicate ItemsNameProducts(s: Store)
  {
    forall id, i :: id in s.orders && 0 <= i < |s.orders[id].items| ==> s.orders[id].items[i].productId in s.products
  }

  /** Every order and product id is a row id, and row ids start at 1. */
  predicate IdsPositive(s: Store)
  {
    && (forall id :: id in s.orders ==> id >= 1)
    && (forall p :: p in s.products ==> p >= 1)
  }

  /** Every order is in one of the five known statuses (not part of `Valid`: create and update store any string). */
  predicate StatusesKnown(s: Store)
  {
    forall id :: id in s.orders ==> s.orders[id].status in ValidStatuses
  }

  predicate Valid(s: Store)
  {
    && StockNonNegative(s)
    && QuantitiesNonNegative(s)
    && TotalsMatchItems(s)
    && ItemsNameProducts(s)
    && IdsPositive(s)
  }
}

=== FILE: reports.dfy ===
/**
 The read side: how the order statistics and a customer's order totals respond to each
 order route, and how the status counts relate to the number of orders.
 */
module Reports {
  import opened Common
  import opened Records
  import opened Tally
  import opened Orders

  /** How many orders are in status `st`. */
  function StatusCount(s: Store, st: string): int
  {
    Scan(s.orders, WithStatus(st))
  }

  /**
   The four status counts the statistics report never exceed the order count: together with
   the shipped orders and the orders in an unknown status they make up exactly all orders.
   */
  lemma StatsCountsPartition(s: Store)
    requires IdsPositive(s)
    ensures var r := Stats(s);
            && r.pending + r.processing + r.completed + r.cancelled
                 + StatusCount(s, Shipped) + Scan(s.orders, UnlistedStatus) == r.total
            && r.pending + r.processing + r.completed + r.cancelled <= r.total
  {
    StatusCountsPartition(s.orders, Span(s.orders));
    ScanEveryIsSize(s.orders);
    SumOverNonNegative(s.orders, Span(s.orders), WithStatus(Shipped));
    SumOverNonNegative(s.orders, Span(s.orders), UnlistedStatus);
  }

  /**
   A created order adds one order, one to the count of its status, and its total to the
   revenue when it is created completed.
   */
  lemma StatsAfterCreate(s: Store, req: CreateRequest, user: int)
    requires IdsPositive(s)
    requires CreateOrder(s, req, user).Ok?
    ensures var c := CreateOrder(s, req, user).value;
            var o := c.store.orders[c.orderId];
            && Stats(c.store).total == Stats(s).total + 1
            && (forall st :: StatusCount(c.store, st) == StatusCount(s, st) + (if o.status == st then 1 else 0))
            && Stats(c.store).revenue == Stats(s).revenue + (if o.status == Completed then o.total else 0)
  {
    var c := CreateOrder(s, req, user).value;
    var o := c.store.orders[c.orderId];
    assert c.store.orders == s.orders[NextId(s.orders.Keys) := o];
    InsertNextCounts(s.orders, o);
  }

  /**
   A deleted order leaves the statistics: one order fewer, one fewer in its status, and its
   total out of the revenue if it was completed.
   */
  lemma StatsAfterDelete(s: Store, id: int)
    requires IdsPositive(s)
    requires DeleteOrder(s, id).Ok?
    ensures var t, o := DeleteOrder(s, id).value, s.orders[id];
            && Stats(t).total == Stats(s).total - 1
            && (forall st :: StatusCount(t, st) == StatusCount(s, st) - (if o.status == st then 1 else 0))
            && Stats(t).revenue == Stats(s).revenue - (if o.status == Completed then o.total else 0)
  {
    var t := DeleteOrder(s, id).value;
    forall st
      ensures StatusCount(t, st) == StatusCount(s, st) - (if s.orders[id].status == st then 1 else 0)
    {
      ScanRemove(s.orders, WithStatus(st), id);
    }
    ScanRemove(s.orders, Revenue, id);
  }

  /**
   A status change moves one order from its old status to its new one and keeps the number
   of orders; the revenue gains or loses the order's total as it enters or leaves `completed`.
   */
  lemma StatsAfterSetStatus(s: Store, id: int, status: Option<string>)
    requires IdsPositive(s)
    requires SetStatus(s, id, status).Ok?
    ensures var t, o := SetStatus(s, id, status).value, s.orders[id];
            && Stats(t).total == Stats(s).total
            && (forall st :: StatusCount(t, st) ==
                  StatusCount(s, st) - (if o.status == st then 1 else 0) + (if status.value == st then 1 else 0))
            && Stats(t).revenue == Stats(s).revenue
                 - (if o.status == Completed then o.total else 0)
                 + (if status.value == Completed then o.total else 0)
  {
    var t := SetStatus(s, id, status).value;
    forall st
      ensures StatusCount(t, st) ==
                StatusCount(s, st) - (if s.orders[id].status == st then 1 else 0) + (if status.value == st then 1 else 0)
    {
      ScanUpdate(s.orders, WithStatus(st), id, t.orders[id]);
    }
    ScanUpdate(s.orders, Revenue, id, t.orders[id]);
  }

  /** A created order counts for its customer, with its total, and for no other customer. */
  lemma CustomerTotalsAfterCreate(s: Store, req: CreateRequest, user: int, customer: int)
    requires IdsPositive(s)
    requires CreateOrder(s, req, user).Ok?
    ensures var c := CreateOrder(s, req, user).value;
            var o := c.store.orders[c.orderId];
            && TotalOrders(c.store, customer) == TotalOrders(s, customer) + (if customer == o.customerId then 1 else 0)
            && TotalSpent(c.store, customer) == TotalSpent(s, customer) + (if customer == o.customerId then o.total else 0)
  {
    var c := CreateOrder(s, req, user).value;
    var o := c.store.orders[c.orderId];
    assert c.store.orders == s.orders[NextId(s.orders.Keys) := o];
    ScanInsertNext(s.orders, OrdersOf(customer), o);
    ScanInsertNext(s.orders, SpentBy(customer), o);
  }

  /** A deleted order stops counting for its customer, with its total. */
  lemma CustomerTotalsAfterDelete(s: Store, id: int, customer: int)
    requires IdsPositive(s)
    requires DeleteOrder(s, id).Ok?
    ensures var t, o := DeleteOrder(s, id).value, s.orders[id];
            && TotalOrders(t, customer) == TotalOrders(s, customer) - (if customer == o.customerId then 1 else 0)
            && TotalSpent(t, customer) == TotalSpent(s, customer) - (if customer == o.customerId then o.total else 0)
  {
    ScanRemove(s.orders, OrdersOf(customer), id);
    ScanRemove(s.orders, SpentBy(customer), id);
  }

  /**
   Updating an order never changes how many orders a customer has; the customer's spending
   moves by the change of the order's total, which only a new item list can bring.
   */
  lemma CustomerTotalsAfterUpdate(s: Store, id: int, req: UpdateRequest, customer: int)
    requires IdsPositive(s)
    requires UpdateOrder(s, id, req).Ok?
    ensures var t, o := UpdateOrder(s, id, req).value, s.orders[id];
            && TotalOrders(t, customer) == TotalOrders(s, customer)
            && TotalSpent(t, customer) == TotalSpent(s, customer)
                 + (if customer == o.customerId then t.orders[id].total - o.total else 0)
            && (req.items.None? ==> TotalSpent(t, customer) == TotalSpent(s, customer))
  {
    var t := UpdateOrder(s, id, req).value;
    ScanUpdate(s.orders, OrdersOf(customer), id, t.orders[id]);
    ScanUpdate(s.orders, SpentBy(customer), id, t.orders[id]);
  }
}

=== FILE: tally.dfy ===
/**
 Facts about scans of the order table (`SumOver`): how a scan responds when one
 order changes, appears or disappears, and how the per-status counts relate to the
 number of orders.
 */
module Tally {
  import opened Records

  /** Two tables that contribute alike at every id below `n` scan alike. */
  lemma {:induction false} SumOverAgree(a: map<int, Order>, b: map<int, Order>, n: nat, m: Measure)
    requires forall k :: 0 <= k < n ==> Contrib(a, k, m) == Contrib(b, k, m)
    ensures SumOver(a, n, m) == SumOver(b, n, m)
  {
    if n > 0 {
      SumOverAgree(a, b, n - 1, m);
    }
  }

  /** Two tables that differ only at `id` scan apart by exactly the difference at `id`. */
  lemma {:induction false} SumOverPointChange(a: map<int, Order>, b: map<int, Order>, n: nat, m: Measure, id: int)
    requires 0 <= id < n
    requires forall k :: 0 <= k < n && k != id ==> Contrib(a, k, m) == Contrib(b, k, m)
    ensures SumOver(b, n, m) == SumOver(a, n, m) - Contrib(a, id, m) + Contrib(b, id, m)
  {
    if id == n - 1 {
      SumOverAgree(a, b, n - 1, m);
    } else {
      SumOverPointChange(a, b, n - 1, m, id);
    }
  }

  /** Replacing the order at `id` changes a scan by the difference of the two orders' weights. */
  lemma UpdateScan(orders: map<int, Order>, n: nat, m: Measure, id: int, o: Order)
    requires 0 <= id < n
    ensures SumOver(orders[id := o], n, m) == SumOver(orders, n, m) - Contrib(orders, id, m) + Weight(o, m)
  {
    SumOverPointChange(orders, orders[id := o], n, m, id);
  }

  /** Removing the order at `id` takes its weight out of a scan. */
  lemma RemoveScan(orders: map<int, Order>, n: nat, m: Measure, id: int)
    requires 0 <= id < n
    ensures SumOver(orders - {id}, n, m) == SumOver(orders, n, m) - Contrib(orders, id, m)
  {
    SumOverPointChange(orders, orders - {id}, n, m, id);
  }

  /** Adding an order at the first id past the scanned range adds its weight to the extended scan. */
  lemma AppendScan(orders: map<int, Order>, n: nat, m: Measure, o: Order)
    ensures SumOver(orders[n := o], n + 1, m) == SumOver(orders, n, m) + Weight(o, m)
  {
    SumOverAgree(orders, orders[n := o], n, m);
  }

  /** The ids of `orders` below `n`. */
  function KeysBelow(orders: map<int, Order>, n: nat): set<int>
  {
    set k | k in orders && 0 <= k < n
  }

  /** Counting every order below `n` counts the ids below `n`. */
  lemma {:induction false} SumOverEveryCountsKeys(orders: map<int, Order>, n: nat)
    ensures SumOver(orders, n, Every) == |KeysBelow(orders, n)|
  {
    if n > 0 {
      SumOverEveryCountsKeys(orders, n - 1);
      var below := KeysBelow(orders, n - 1);
      if n - 1 in orders {
        assert KeysBelow(orders, n) == below + {n - 1};
        assert n - 1 !in below;
      } else {
        assert KeysBelow(orders, n) == below;
      }
    }
  }

  /** When every id is below `n`, counting every order yields the size of the table. */
  lemma SumOverEveryIsSize(orders: map<int, Order>, n: nat)
    requires forall k :: k in orders ==> 0 <= k < n
    ensures SumOver(orders, n, Every) == |orders|
  {
    SumOverEveryCountsKeys(orders, n);
    assert KeysBelow(orders, n) == orders.Keys;
  }

  /** Each order is in exactly one of the five statuses or in none of them. */
  lemma {:induction false} StatusCountsPartition(orders: map<int, Order>, n: nat)
    ensures SumOver(orders, n, WithStatus(Pending)) + SumOver(orders, n, WithStatus(Processing))
          + SumOver(orders, n, WithStatus(Shipped)) + SumOver(orders, n, WithStatus(Completed))
          + SumOver(orders, n, WithStatus(Cancelled)) + SumOver(orders, n, UnlistedStatus)
         == SumOver(orders, n, Every)
  {
    if n > 0 {
      StatusCountsPartition(orders, n - 1);
    }
  }

  /** A scan whose weights are never negative is never negative. */
  lemma {:induction false} SumOverNonNegative(orders: map<int, Order>, n: nat, m: Measure)
    requires forall k :: k in orders ==> Weight(orders[k], m) >= 0
    ensures SumOver(orders, n, m) >= 0
  {
    if n > 0 {
      SumOverNonNegative(orders, n - 1, m);
    }
  }

  /** Past the largest id nothing more is scanned. */
  lemma {:induction false} SumOverPastKeys(orders: map<int, Order>, n: nat, k: nat, m: Measure)
    requires forall key :: key in orders ==> key < n
    requires n <= k
    ensures SumOver(orders, k, m) == SumOver(orders, n, m)
    decreases k
  {
    if k > n {
      SumOverPastKeys(orders, n, k - 1, m);
      assert k - 1 !in orders;
    }
  }

  /** Any range that reaches past every id scans the whole table. */
  lemma ScanAtAnyBound(orders: map<int, Order>, n: nat, m: Measure)
    requires forall key :: key in orders ==> key < n
    ensures SumOver(orders, n, m) == Scan(orders, m)
  {
    if n <= Span(orders) {
      SumOverPastKeys(orders, n, Span(orders), m);
    } else {
      SumOverPastKeys(orders, Span(orders), n, m);
    }
  }

  /** Replacing the order at an existing id changes the table's scan by the difference of the weights. */
  lemma ScanUpdate(orders: map<int, Order>, m: Measure, id: int, o: Order)
    requires id in orders && id >= 0
    ensures Scan(orders[id := o], m) == Scan(orders, m) - Weight(orders[id], m) + Weight(o, m)
  {
    assert orders[id := o].Keys == orders.Keys;
    UpdateScan(orders, Span(orders), m, id, o);
  }

  /** Removing an order takes its weight out of the table's scan. */
  lemma ScanRemove(orders: map<int, Order>, m: Measure, id: int)
    requires id in orders && id >= 0
    ensures Scan(orders - {id}, m) == Scan(orders, m) - Weight(orders[id], m)
  {
    RemoveScan(orders, Span(orders), m, id);
    ScanAtAnyBound(orders - {id}, Span(orders), m);
  }

  /** An order inserted under the next row id adds its weight to the table's scan. */
  lemma ScanInsertNext(orders: map<int, Order>, m: Measure, o: Order)
    requires forall k :: k in orders ==> k >= 0
    ensures Scan(orders[NextId(orders.Keys) := o], m) == Scan(orders, m) + Weight(o, m)
  {
    var n := NextId(orders.Keys);
    assert n >= 1;
    AppendScan(orders, n, m, o);
    ScanAtAnyBound(orders[n := o], n + 1, m);
    ScanAtAnyBound(orders, n, m);
  }

  /** Counting every order of a table of row ids yields the size of the table. */
  lemma ScanEveryIsSize(orders: map<int, Order>)
    requires forall k :: k in orders ==> k >= 0
    ensures Scan(orders, Every) == |orders|
  {
    SumOverEveryIsSize(orders, Span(orders));
  }

  /** An order inserted under the next row id adds one order, one to its status count, and its total to revenue if completed. */
  lemma InsertNextCounts(orders: map<int, Order>, o: Order)
    requires forall k :: k in orders ==> k >= 0
    ensures var t := orders[NextId(orders.Keys) := o];
            && |t| == |orders| + 1
            && (forall st :: Scan(t, WithStatus(st)) == Scan(orders, WithStatus(st)) + (if o.status == st then 1 else 0))
            && Scan(t, Revenue) == Scan(orders, Revenue) + (if o.status == Completed then o.total else 0)
  {
    var t := orders[NextId(orders.Keys) := o];
    assert t.Keys == orders.Keys + {NextId(orders.Keys)};
    forall st
      ensures Scan(t, WithStatus(st)) == Scan(orders, WithStatus(st)) + (if o.status == st then 1 else 0)
    {
      ScanInsertNext(orders, WithStatus(st), o);
    }
    ScanInsertNext(orders, Revenue, o);
  }
}
